=== FILE: README.md ===
# Stroke data builder: a Dafny model

The stroke data builder is an Android tool that turns the Make Me a Hanzi
character outlines into `strokes.dat`, a compact binary file of Chinese
character stroke outlines. This project models its pure core, all of which
lives in `MainActivity.java`:

- **Character list.** `readChars` and `codePoints` read the character list.
  Blank lines and `//` comments are skipped. Every other line is trimmed and
  split into Unicode code points, which are kept once each, in first-seen
  order (module `CharList`).
- **Stroke encoder.** `createBlob` encodes one character. Each stroke outline
  is a sequence of path commands (`M`, `L`, `Q`, with `Z` closing a subpath).
  The encoder:
  1. collects the stroke's contour points in glyph space (`y` flipped to
     `900 - y`);
  2. drops a line back to the subpath start that `Z` would draw anyway;
  3. picks as the start the contour point nearest the start of the stroke's
     median;
  4. removes a leading move that the contour closes onto;
  5. walks the contour once round, circularly, from the point after the
     start;
  6. records the path length up to the walked point nearest the median end.

  The modules involved are:
  - `Contour`: collecting, picking the start and walking;
  - `Geometry`: points and nearest-point search;
  - `StrokeEncoding`: one stroke;
  - `CharacterBlob`: one character.
- **Quantizer and byte layout.** `transformArg` quantizes a coordinate to one
  byte, keeping quad control bytes clear of the opcodes 0 (end of stroke) and
  1 (line to). `addLineToBytes` and `addQuadToBytes` lay out the segments.
  The character blob is every stroke followed by a 0 terminator, with the
  final terminator cut off. This is modules `Quantize` and `StrokeCodec`.
  The blob decoder in `StrokeCodec` is not in the program. It is a decoder
  used to state that the encoding is unambiguous.
- **Key ordering.** `createFullMap` orders the characters: the base list
  first, then the remaining characters that have stroke data. A base
  character without data is a fatal error (module `FullMap`).
- **Container writer.** `writeStrokeData` and `fillBuffer` write the file:
  - a little-endian 16-bit entry count;
  - one 4-byte index record (code point, blob length) per entry;
  - the concatenated blobs of the entries the allow-set admits.

  This is module `Container`. The container reader in `Container` is not in
  the program either. It is a reader used to state that the writer's output
  can be read back entry by entry.

Modules `Results`, `Seqs` and `Bytes` hold the result type, sequence helpers
(flattening, the ordered-set insertion of `LinkedHashSet`) and the byte
helpers (Java's truncating division, the 16-bit little-endian split).

Some modelling choices:

- Bytes are the integers 0..255, as the file holds them.
- Java strings are sequences of UTF-16 code units.
- Euclidean distance is compared through integer squared distance. For
  coordinates below 2^20 in magnitude this decides every strict comparison
  the source makes the same way: distinct squared distances are then below
  2^43, and their square roots differ by far more than the rounding of a
  `double`.
- Android's path-length measurement is a parameter `measure`. It stands for
  the integer-truncated length of the path drawn from a start point through
  a sequence of contour points.

## Model


| member | source | states |
|---|---|---|
| Quantize.TransformArg | app/src/main/java/com/hanpingchinese/strokedatabuilder/MainActivity.java:523-538 | The byte is at least the lower bound: 2 when opcode clashes are avoided, 0 otherwise. When avoiding, it is never the end-of-stroke or line-to opcode. For arguments from 4·bound to 1023 it is the quarter of the argument, rounded down. Below that range it saturates at the bound, and from 1020 up it is 255. |
| Quantize.TransformArgMonotone | app/src/main/java/com/hanpingchinese/strokedatabuilder/MainActivity.java:526-538 | A larger coordinate never quantizes to a smaller byte, negative coordinates included. |
| Quantize.TransformArgIgnoresRounding | app/src/main/java/com/hanpingchinese/strokedatabuilder/MainActivity.java:527-532 | Java's truncating `arg / 4` and a floored quotient give the same byte once clamped, so negative arguments need no special care. |
| StrokeCodec.QuantizeContour | app/src/main/java/com/hanpingchinese/strokedatabuilder/MainActivity.java:508-521 | A straight contour point becomes a line segment and a curved one a quad. The quad's first byte, its control x, is never 0 or 1. |
| StrokeCodec.StrokeBytesLength | app/src/main/java/com/hanpingchinese/strokedatabuilder/MainActivity.java:452-472 | One stroke takes 1 length byte, 2 start bytes, 3 bytes per line, 4 bytes per quad and 1 terminator. |
| StrokeCodec.BlobDropsFinalTerminator | app/src/main/java/com/hanpingchinese/strokedatabuilder/MainActivity.java:500-504 | The concatenation of all strokes, each with its terminator, is the character blob followed by one 0 byte. |
| StrokeCodec.ParseSegmentsRoundTrip | app/src/main/java/com/hanpingchinese/strokedatabuilder/MainActivity.java:508-524 | A decoder reading a 1 as a line, a 0 as the end of the stroke and anything else as a quad recovers every segment sequence the encoder writes, and stops exactly at the terminator. |
| StrokeCodec.ParseBlobRoundTrip | app/src/main/java/com/hanpingchinese/strokedatabuilder/MainActivity.java:500-504 | The character blob, despite its missing final terminator, decodes back to exactly the encoded strokes. |
| Geometry.FirstNearest | app/src/main/java/com/hanpingchinese/strokedatabuilder/MainActivity.java:474-480 | The running strict minimum finds a point no farther from the target than any other, and strictly nearer than every earlier point. |
| Geometry.FirstNearestSnoc | app/src/main/java/com/hanpingchinese/strokedatabuilder/MainActivity.java:417-421 | Appending a point replaces the current nearest one only when the new point is strictly nearer: one step of the source's running minimum. |
| Geometry.FirstNearestUnique | app/src/main/java/com/hanpingchinese/strokedatabuilder/MainActivity.java:417-421 | At most one index is the first nearest, so the running minimum and any other search for it agree. |
| Contour.Interpret | app/src/main/java/com/hanpingchinese/strokedatabuilder/MainActivity.java:391-415 | A command is dropped if and only if it is a line to the current subpath start followed by `Z`. It is refused if and only if it is malformed, or is such a line at the very end of the text, whose lookahead reads past it. Otherwise it adds its contour point (a quad keeps its control point); a move starts a new subpath and nothing else changes the subpath start. |
| Contour.Collect | app/src/main/java/com/hanpingchinese/strokedatabuilder/MainActivity.java:389-416 | Collection fails only on an unknown code, a missing argument, a lookahead past the end of the text, or a point when the median has none. With median points and commands that are all accepted it succeeds. |
| Contour.CollectKeepsAllButDegenerateCloses | app/src/main/java/com/hanpingchinese/strokedatabuilder/MainActivity.java:389-416 | A successful collection accepted every command, and the contour list holds, in command order, the point of every command except a line back to the subpath start that `Z` follows. A quad keeps its control point. |
| Contour.CanonicalStart | app/src/main/java/com/hanpingchinese/strokedatabuilder/MainActivity.java:417-421 | The start is a contour index at minimal distance to the median start, strictly nearer than every earlier index, so a later tie never replaces it. |
| Contour.AsWrittenAgreesWithoutElision | app/src/main/java/com/hanpingchinese/strokedatabuilder/MainActivity.java:386-421 | When no line is dropped, the index the command loop records is exactly the canonical start. |
| Contour.AsWrittenStartSkewedByElidedLine | app/src/main/java/com/hanpingchinese/strokedatabuilder/MainActivity.java:389-421 | On a stroke whose first subpath ends with a dropped line, the recorded index (3) designates a different contour point than the canonical start (2). |
| Contour.AsWrittenIndexPastContour | app/src/main/java/com/hanpingchinese/strokedatabuilder/MainActivity.java:389-449 | On the same stroke without its last line, the recorded index is 3 while the contour list has 3 points, so the later lookup of the start point at that index is out of range. |
| Contour.DropLeadingDuplicate | app/src/main/java/com/hanpingchinese/strokedatabuilder/MainActivity.java:434-446 | If the contour has more than one point and its first point equals its last target, exactly the first point is removed; start index 0 becomes the new last index and any other start index moves down one, so it still designates the same target point. Otherwise nothing changes. |
| Contour.DropLeadingDuplicateKeepsRotation | app/src/main/java/com/hanpingchinese/strokedatabuilder/MainActivity.java:434-466 | After the drop, the contour read circularly from just after the new start is the old circular reading from just after the old start, with only the removed first point taken out. So the walk visits the same points in the same order. |
| Contour.Walk | app/src/main/java/com/hanpingchinese/strokedatabuilder/MainActivity.java:456-466 | Walk position k is contour index (start + 1 + k) mod n. The walk has n points, or n - 1 when the start point is a move or a line (not a quad) and so is skipped on the last turn. |
| Contour.WalkIsRotation | app/src/main/java/com/hanpingchinese/strokedatabuilder/MainActivity.java:456-466 | The walk, plus the skipped closing line if any, is the rotation of the contour that begins just after the start. So every index is visited exactly once, in circular order. |
| StrokeEncoding.EncodeWalk | app/src/main/java/com/hanpingchinese/strokedatabuilder/MainActivity.java:452-484 | The walk encodes if and only if it visits at least one point; otherwise it fails with no end point. An encoded walk has one unambiguous segment per walked point. |
| StrokeEncoding.EncodeStroke | app/src/main/java/com/hanpingchinese/strokedatabuilder/MainActivity.java:376-505 | A stroke that encodes has commands and a median, and its segments are unambiguous. |
| StrokeEncoding.EncodeContour | app/src/main/java/com/hanpingchinese/strokedatabuilder/MainActivity.java:434-481 | A collected contour that encodes, after its start is chosen and a leading duplicate dropped, has unambiguous segments. |
| StrokeEncoding.StrokeOutcome | app/src/main/java/com/hanpingchinese/strokedatabuilder/MainActivity.java:376-484 | A stroke fails exactly as follows: a failing command loop passes its error on; an empty contour fails; a non-empty one fails with no end point if and only if nothing is left to walk (a single straight point, or a point and a straight line back onto it); otherwise it encodes. |
| StrokeEncoding.ContourOutcome | app/src/main/java/com/hanpingchinese/strokedatabuilder/MainActivity.java:434-484 | A non-empty contour fails, with no end point, if and only if it is a single straight point or a point with a straight line back onto it. |
| StrokeEncoding.SinglePointStrokeHasNoEndPoint | app/src/main/java/com/hanpingchinese/strokedatabuilder/MainActivity.java:389-484 | `M 0 0 Z` with a one-point median collects one point, walks nothing and fails with no end point. |
| StrokeEncoding.EncodedStartIsCanonical | app/src/main/java/com/hanpingchinese/strokedatabuilder/MainActivity.java:417-452 | The start bytes of an encoded stroke are the quantized first-nearest contour point to the median start. This holds even when the leading move was removed. |
| StrokeEncoding.EncodedLengthAndSegments | app/src/main/java/com/hanpingchinese/strokedatabuilder/MainActivity.java:456-500 | Segment i is the quantized contour point at walk turn i. The length byte is half the measured path from the start through the walk's first point nearest the median end, quantized. |
| StrokeEncoding.ScenarioStroke | app/src/main/java/com/hanpingchinese/strokedatabuilder/MainActivity.java:389-502 | `M 0 0 L 100 0 Z` with median (0,0)–(100,0) encodes as start (0, 225), one line to (25, 225), and half the measured length of that line. |
| CharacterBlob.EncodeStrokesFrom | app/src/main/java/com/hanpingchinese/strokedatabuilder/MainActivity.java:376-383 | Stroke j is encoded with median j. The strokes encode if and only if every stroke has a median of its index and encodes with it, so extra medians are ignored and running out of medians is an error. |
| CharacterBlob.FirstFailureReported | app/src/main/java/com/hanpingchinese/strokedatabuilder/MainActivity.java:376-383 | When strokes fail, the error is the one of the first failing stroke: its missing median, or its own encoding error. |
| CharacterBlob.EncodeCharacter | app/src/main/java/com/hanpingchinese/strokedatabuilder/MainActivity.java:376-504 | A character encodes if and only if it has at least one stroke and every stroke has a median of its index and encodes with it. So no strokes, or fewer medians than strokes, fail. |
| CharacterBlob.EncodeCharacterRoundTrip | app/src/main/java/com/hanpingchinese/strokedatabuilder/MainActivity.java:500-504 | Decoding a character blob yields one stroke per input stroke, each exactly that stroke's encoding. |
| CharacterBlob.SingleLineScenario | app/src/main/java/com/hanpingchinese/strokedatabuilder/MainActivity.java:500-504 | The worked one-stroke character is the 6 bytes [length, 0, 225, 1, 25, 225], with no terminator. |
| Bytes.JavaDiv | app/src/main/java/com/hanpingchinese/strokedatabuilder/MainActivity.java:527 | The quotient truncates toward zero: the remainder has the sign of the dividend and is smaller than the divisor. |
| Bytes.FillBuffer | app/src/main/java/com/hanpingchinese/strokedatabuilder/MainActivity.java:224-227 | Two bytes, low byte first, whose little-endian value is the input modulo 65536. |
| Bytes.ReadU16FillBuffer | app/src/main/java/com/hanpingchinese/strokedatabuilder/MainActivity.java:224-227 | Reading back the two bytes of a 16-bit value gives the value. |
| Container.WriteStrokeData | app/src/main/java/com/hanpingchinese/strokedatabuilder/MainActivity.java:176-218 | The output is count, then index, then data. The hanzi count is the number of admitted entries. The bytes written are 2 + 4·n + the total length of the admitted blobs, equal to the output length. |
| Container.DataPass | app/src/main/java/com/hanpingchinese/strokedatabuilder/MainActivity.java:184-196 | The index map has, in map order, each code point with its admitted blob length (0 when not admitted). The data is the admitted blobs concatenated, and the count is the number admitted. |
| Container.IndexPass | app/src/main/java/com/hanpingchinese/strokedatabuilder/MainActivity.java:198-209 | The index is one 4-byte record per map entry, in map order. |
| Container.ContainerHeader | app/src/main/java/com/hanpingchinese/strokedatabuilder/MainActivity.java:211-216 | The file starts with the entry count modulo 65536, and its length is 2 + 4·n + the admitted blob lengths. |
| Container.ContainerLayout | app/src/main/java/com/hanpingchinese/strokedatabuilder/MainActivity.java:202-213 | Entry j's record is at byte 2 + 4j and holds its code point and stored length, each modulo 65536. An entry outside the allow-set has length 0. |
| Container.DataLayout | app/src/main/java/com/hanpingchinese/strokedatabuilder/MainActivity.java:192-214 | Entry j's admitted blob sits in the data section right after the blobs of the entries before it. |
| Container.ContainerRoundTrip | app/src/main/java/com/hanpingchinese/strokedatabuilder/MainActivity.java:176-227 | When counts, code points and lengths fit in 16 bits, reading the file back gives every entry in order: its code point with its blob, or an empty blob when not admitted. |
| FullMap.Lookup | app/src/main/java/com/hanpingchinese/strokedatabuilder/MainActivity.java:164 | A lookup succeeds if and only if the key has stroke data, and then returns that key's blob. |
| FullMap.FullOrder | app/src/main/java/com/hanpingchinese/strokedatabuilder/MainActivity.java:160-161 | The key order has no duplicates, and holds exactly the base characters and the stroke-data keys. |
| FullMap.PutAll | app/src/main/java/com/hanpingchinese/strokedatabuilder/MainActivity.java:162-170 | It succeeds if and only if every key has data, giving each key with its blob in order. Otherwise it fails on the first key without data. |
| FullMap.CreateFullMap | app/src/main/java/com/hanpingchinese/strokedatabuilder/MainActivity.java:159-171 | It succeeds if and only if every base character has stroke data, and the resulting keys are distinct. A failure names a base character without data. |
| FullMap.FullMapKeyOrder | app/src/main/java/com/hanpingchinese/strokedatabuilder/MainActivity.java:160-163 | The keys are the base list in its order, followed by the stroke-data keys not in the base list, in their order. |
| FullMap.FullMapHoldsTheData | app/src/main/java/com/hanpingchinese/strokedatabuilder/MainActivity.java:163-170 | The full map holds exactly the stroke-data entries, each key with its own blob, no more and no fewer. |
| CharList.Trim | app/src/main/java/com/hanpingchinese/strokedatabuilder/MainActivity.java:72 | The trimmed line is a slice of the line with only control and space units (up to U+0020) outside it, and it neither starts nor ends with one. |
| CharList.CodePointAt | app/src/main/java/com/hanpingchinese/strokedatabuilder/MainActivity.java:114 | The result is a code point. It is supplementary exactly when a high surrogate is followed by a low surrogate. |
| CharList.CodePointsFrom | app/src/main/java/com/hanpingchinese/strokedatabuilder/MainActivity.java:102-123 | The iterator from an offset yields only valid code points (0 to U+10FFFF), at most one per remaining unit. |
| CharList.CodePoints | app/src/main/java/com/hanpingchinese/strokedatabuilder/MainActivity.java:102-123 | A string's code points are all valid, and there are at most as many as units. |
| CharList.CodePointsUnits | app/src/main/java/com/hanpingchinese/strokedatabuilder/MainActivity.java:102-123 | Each code point takes one or two units, so a string has between half as many code points as units and as many. |
| CharList.CodePointsRoundTrip | app/src/main/java/com/hanpingchinese/strokedatabuilder/MainActivity.java:102-123 | Re-encoding the iterated code points in UTF-16 gives back the string, lone surrogates included. |
| CharList.ScalarsRoundTrip | app/src/main/java/com/hanpingchinese/strokedatabuilder/MainActivity.java:102-123 | Iterating the UTF-16 encoding of Unicode scalar values gives back those values. |
| CharList.KeptCodePointsContents | app/src/main/java/com/hanpingchinese/strokedatabuilder/MainActivity.java:71-83 | A code point is collected if and only if it occurs in the trimmed form of some line that is neither blank nor a `//` comment. |
| Seqs.AddAll | app/src/main/java/com/hanpingchinese/strokedatabuilder/MainActivity.java:160-161 | Adding to an ordered set keeps the existing elements as a prefix, keeps it free of duplicates, and holds exactly the old elements and the added ones. |
| CharList.ReadChars | app/src/main/java/com/hanpingchinese/strokedatabuilder/MainActivity.java:64-100 | The result has no duplicates, and holds exactly the code points of the kept lines, each inserted as an ordered set would. |
| CharList.AddCodePoints | app/src/main/java/com/hanpingchinese/strokedatabuilder/MainActivity.java:80-83 | Iterating a line and adding each code point equals adding the line's code points to the ordered set. |
| CharList.ReadCharsFirstSeenOrder | app/src/main/java/com/hanpingchinese/strokedatabuilder/MainActivity.java:69-83 | Characters in the result appear in the order of their first occurrence in the kept lines. |

## Left out

- Android UI, assets and files (`onCreate`, `buildPluginZip`, `AssetManager`, `FileOutputStream`):
  - the character list is a sequence of lines;
  - the container is a returned byte sequence.
- `BufferedReader` line splitting: the model takes a list of lines.
- `Log` output and the static minimum/maximum statistics: they are diagnostics and do not reach the output.
- Regular-expression extraction of the `character`, `strokes` and `medians` fields, and the stripping of fractional digits in `readStrokeData`:
  - strokes arrive as commands with integer arguments. `STROKE_CMP_PATTERN` (line 306) matches only the letters `M`, `Q` and `L`, so the tokeniser silently skips any other command and the `Unknown curve code` throw at line 414 cannot be reached; the model's `UnknownCurveCode` error exists only because a `Command` value can carry any letter;
  - each command carries what the text holds after its following space: `Z`, another character, or nothing;
  - medians arrive as lists of points.
- `readStrokeData` as a whole: it is the parsing and statistics loop around `createBlob`.
- `Math.hypot` is replaced by integer squared distance. For coordinates below 2^20 in magnitude the comparisons of the distances computed at lines 417 and 474 stay the same, because distance is monotone in squared distance and such distances are far apart in `double`. For larger coordinates they can differ, as listed next to the flip below.
- `PathMeasure` and `Path` are the parameter `measure`:
  - it gives a non-negative integer length for the path from the start through the walked points;
  - no property of real arc length is assumed;
  - the model measures once, at the first nearest point, which is where the source's last remeasurement happens.
- Bytes.FillBuffer: the value is reduced modulo 65536, as Java's two byte casts do. Code points, lengths or counts of 65536 or more are silently truncated in the file, so Container.ContainerRoundTrip requires that they fit in 16 bits.
- CharacterBlob.EncodeCharacter: of the stroke/median count mismatches, `createBlob` fails only when a stroke has no median of its index (`medianStartPoints.get(index)`, line 381); extra medians are ignored, as in the model.
- StrokeEncoding.EncodeStroke: the encoder starts at the corrected canonical start (Contour.CanonicalStart), not at the index the source records. On a stroke with a dropped line before its nearest point it therefore differs from the source: it starts at another point, or it encodes where the source's index runs past the contour list and the lookup at line 449 throws. The as-written index is Contour.CollectAsWritten; see "## Findings".
- The flip `900 - y` (lines 364, 393 and 410) is unbounded here. In the source it is 32-bit and wraps for y below -2147482747; `Integer.valueOf` already refuses values outside 32 bits, so only such extreme inputs differ.
- Geometry.SquaredDistance: exact integer arithmetic, so for coordinates of 2^20 or more in magnitude the model can order distances differently from the source, in two ways:
  - `Math.hypot` rounds to a `double`, so two distinct distances can compare equal there (at about 2^30 apart from the median start, a difference of one unit in the other coordinate vanishes) and the source keeps the earlier point where the model takes the strictly nearer one;
  - the `int` subtractions inside both `hypot` calls (lines 417 and 474) wrap when coordinates are about 2^31 apart.
- A character without strokes:
  - the source fails when asking for an array of size -1;
  - the model returns the error `NoStrokes`.
- Runtime exceptions are modelled as `Err` values of `BuildError`:
  - the out-of-range index of an empty contour;
  - the null median of a median without points;
  - the missing end point of an empty walk;
  - an unknown curve code (unreachable in the source, see the regular-expression line above);
  - a missing quad argument;
  - the lookahead of a line back to the subpath start at the very end of the stroke text (`charAt` past the end).

## Findings

| source | as written | input that shows it | evidently intended | confidence | as-written member | corrected member |
|---|---|---|---|---|---|---|
| app/src/main/java/com/hanpingchinese/strokedatabuilder/MainActivity.java:389-421 | The running start index counts every matched command, including a dropped line (the `continue` at line 404). That index is then used against the contour list, which leaves such lines out. | Stroke `M 0 0 L 10 0 L 0 0 Z M 100 100 L 200 200 Z` with median start (100, 100). The recorded index is 3, which is (200, 700) in glyph space. The nearest point, (100, 800), is at index 2. Without the last line, `M 0 0 L 10 0 L 0 0 Z M 100 100`, the index is 3 on a 3-point contour, and `contours.get` at line 449 throws. | The index of the first contour point nearest the median start, counted in the contour list. | not executed | Contour.CollectAsWritten (shown by Contour.AsWrittenStartSkewedByElidedLine and Contour.AsWrittenIndexPastContour) | Contour.CanonicalStart |

=== FILE: bytes.dfy ===
/** Bytes as they land in the output file, Java integer division, and the little-endian u16 field. */
module Bytes {

  /** One byte of the output, read unsigned. */
  type Byte = b: int | 0 <= b < 256

  /** Java's `/` on int: the quotient truncated toward zero. */
  function JavaDiv(a: int, d: int): (q: int)
    requires d > 0
    ensures a >= 0 ==> 0 <= a - q * d < d
    ensures a < 0 ==> -d < a - q * d <= 0
  {
    if a >= 0 then a / d else -((-a) / d)
  }

  /**
   * `fillBuffer`: the low byte of `value` then the byte above it, as
   * `(byte) value` and `(byte) (value >> 8)` leave them in the buffer. An
   * arithmetic shift right by 8 is the floor quotient by 256, which is what
   * Dafny's `/` computes for a positive divisor.
   */
  function FillBuffer(value: int): (buf: seq<Byte>)
    ensures |buf| == 2
    ensures buf[0] as int + 256 * (buf[1] as int) == value % 65536
  {
    LittleEndianSplit(value);
    [value % 256, (value / 256) % 256]
  }

  lemma LittleEndianSplit(value: int)
    ensures value % 256 + 256 * ((value / 256) % 256) == value % 65536
  {
    var q := value / 256;
    var r := value % 256;
    var q2 := q / 256;
    var r2 := q % 256;
    assert value == 256 * q + r;
    assert q == 256 * q2 + r2;
    assert value == 65536 * q2 + (256 * r2 + r);
    assert 0 <= 256 * r2 + r < 65536;
    ModOfDecomposition(value, 65536, q2, 256 * r2 + r);
  }

  lemma ModOfDecomposition(v: int, d: int, q: int, r: int)
    requires d > 0 && v == d * q + r && 0 <= r < d
    ensures v % d == r
  {
    var q' := v / d;
    var r' := v % d;
    assert d * (q - q') == r' - r;
    if q - q' >= 1 {
      MulAtLeast(d, q - q');
    } else if q' - q >= 1 {
      MulAtLeast(d, q' - q);
    }
  }

  lemma MulAtLeast(d: int, k: int)
    requires d > 0 && k >= 1
    ensures d * k >= d
    decreases k
  {
    if k > 1 {
      MulAtLeast(d, k - 1);
      assert d * k == d * (k - 1) + d;
    }
  }

  /** Reads the little-endian unsigned 16-bit field at `i`. */
  function ReadU16(b: seq<Byte>, i: nat): (v: nat)
    requires i + 2 <= |b|
    ensures v < 65536
  {
    b[i] as int + 256 * (b[i + 1] as int)
  }

  /** A value that fits in 16 bits is read back exactly as it was filled in. */
  lemma ReadU16FillBuffer(value: int)
    requires 0 <= value < 65536
    ensures ReadU16(FillBuffer(value), 0) == value
  {
    ModOfDecomposition(value, 65536, 0, value);
  }
}

=== FILE: characterblob.dfy ===
/**
 * `createBlob` over a whole character: every stroke is encoded with the
 * median of the same index, and the strokes are concatenated into one blob.
 */
module CharacterBlob {
  import opened Results
  import opened Bytes
  import opened Quantize
  import opened Geometry
  import opened Contour
  import opened StrokeCodec
  import opened StrokeEncoding

  /** How one stroke and its median become an encoded stroke, or fail. */
  type StrokeEncoder = (seq<Command>, seq<Point>) -> Result<EncodedStroke>

  /** The stroke encoder of the source, for a given path measurement. */
  function EncoderFor(measure: Measure): StrokeEncoder {
    (cmds: seq<Command>, median: seq<Point>) => EncodeStroke(cmds, median, measure)
  }

  /** Stroke `j` with median `j` encodes to `es[j - i]`, for every `j` from `i` on that `es` covers. */
  ghost predicate EncodesFrom(strokes: seq<seq<Command>>, medians: seq<seq<Point>>, i: nat, encode: StrokeEncoder,
                              es: seq<EncodedStroke>)
  {
    && i + |es| <= |strokes|
    && (|es| == 0 || i + |es| <= |medians|)
    && forall j :: i <= j < i + |es| ==> encode(strokes[j], medians[j]) == Ok(es[j - i])
  }

  /** Stroke `j` cannot be encoded: it has no median of its index, or it fails with its median. */
  predicate StrokeFails(strokes: seq<seq<Command>>, medians: seq<seq<Point>>, j: nat, encode: StrokeEncoder)
    requires j < |strokes|
  {
    j >= |medians| || encode(strokes[j], medians[j]).Err?
  }

  /** The error a failing stroke reports. */
  function FailureOf(strokes: seq<seq<Command>>, medians: seq<seq<Point>>, j: nat, encode: StrokeEncoder): BuildError
    requires j < |strokes| && StrokeFails(strokes, medians, j, encode)
  {
    if j >= |medians| then MissingMedian(j) else encode(strokes[j], medians[j]).error
  }

  /**
   * The strokes from `i` on, each paired with the median of the same index;
   * the first stroke that fails, or lacks a median, fails the character.
   */
  function EncodeStrokesFrom(strokes: seq<seq<Command>>, medians: seq<seq<Point>>, i: nat, encode: StrokeEncoder)
    : (r: Result<seq<EncodedStroke>>)
    requires i <= |strokes|
    ensures r.Ok? ==> |r.value| == |strokes| - i && EncodesFrom(strokes, medians, i, encode, r.value)
    ensures r.Ok? ==> i == |strokes| || |strokes| <= |medians|
    ensures i < |strokes| && |medians| < |strokes| ==> r.Err?
    ensures r.Ok? <==> forall j :: i <= j < |strokes| ==> !StrokeFails(strokes, medians, j, encode)
    decreases |strokes| - i
  {
    if i == |strokes| then Ok([])
    else if i >= |medians| then
      assert StrokeFails(strokes, medians, i, encode);
      Err(MissingMedian(i))
    else
      var first := encode(strokes[i], medians[i]);
      if first.Err? then
        assert StrokeFails(strokes, medians, i, encode);
        Err(first.error)
      else
        var e := first.value;
        var rest :- EncodeStrokesFrom(strokes, medians, i + 1, encode);
        EncodesFromCons(strokes, medians, i, encode, e, rest);
        Ok([e] + rest)
  }

  /** A character fails with the error of its first failing stroke. */
  lemma {:induction false} FirstFailureReported(strokes: seq<seq<Command>>, medians: seq<seq<Point>>, i: nat,
                                                encode: StrokeEncoder, j: nat)
    requires i <= j < |strokes| && StrokeFails(strokes, medians, j, encode)
    requires forall k :: i <= k < j ==> !StrokeFails(strokes, medians, k, encode)
    ensures EncodeStrokesFrom(strokes, medians, i, encode) == Err(FailureOf(strokes, medians, j, encode))
    decreases j - i
  {
    if i < j {
      assert !StrokeFails(strokes, medians, i, encode);
      FirstFailureReported(strokes, medians, i + 1, encode, j);
    }
  }

  lemma EncodesFromCons(strokes: seq<seq<Command>>, medians: seq<seq<Point>>, i: nat, encode: StrokeEncoder,
                        e: EncodedStroke, rest: seq<EncodedStroke>)
    requires i < |strokes| && i < |medians| && encode(strokes[i], medians[i]) == Ok(e)
    requires EncodesFrom(strokes, medians, i + 1, encode, rest)
    ensures EncodesFrom(strokes, medians, i, encode, [e] + rest)
  {
    var es := [e] + rest;
    forall j | i <= j < i + |es|
      ensures encode(strokes[j], medians[j]) == Ok(es[j - i])
    {
      if j > i {
        assert es[j - i] == rest[j - (i + 1)];
      }
    }
  }

  /**
   * The character blob: every stroke written with its terminator, then the
   * final byte cut off. Without strokes there is no byte to cut, which the
   * source reports as a negative array size.
   */
  function EncodeCharacter(strokes: seq<seq<Command>>, medians: seq<seq<Point>>, measure: Measure)
    : (r: Result<seq<Byte>>)
    ensures r.Ok? ==> 0 < |strokes| <= |medians|
    ensures |strokes| == 0 ==> r == Err(NoStrokes)
    ensures |medians| < |strokes| ==> r.Err?
    ensures r.Ok? <==> 0 < |strokes| && forall j :: 0 <= j < |strokes| ==> !StrokeFails(strokes, medians, j, EncoderFor(measure))
  {
    var es :- EncodeStrokesFrom(strokes, medians, 0, EncoderFor(measure));
    if |es| == 0 then Err(NoStrokes)
    else
      var all := AllStrokeBytes(es);
      BlobDropsFinalTerminator(es);
      Ok(all[..|all| - 1])
  }

  /**
   * Decoding a character blob gives back, stroke by stroke, exactly what was
   * encoded: the opcode avoidance keeps quads apart from lines and
   * terminators, and the missing final terminator is recognised by the end of
   * the blob.
   */
  lemma EncodeCharacterRoundTrip(strokes: seq<seq<Command>>, medians: seq<seq<Point>>, measure: Measure)
    requires EncodeCharacter(strokes, medians, measure).Ok?
    ensures var decoded := ParseStrokes(EncodeCharacter(strokes, medians, measure).value);
            && decoded.Some?
            && |decoded.value| == |strokes|
            && forall i :: 0 <= i < |strokes| ==> EncodeStroke(strokes[i], medians[i], measure) == Ok(decoded.value[i])
  {
    var encode := EncoderFor(measure);
    var es := EncodeStrokesFrom(strokes, medians, 0, encode).value;
    assert EncodesFrom(strokes, medians, 0, encode, es);
    forall i | 0 <= i < |es| ensures EncodeStroke(strokes[i], medians[i], measure) == Ok(es[i]) {
      assert encode(strokes[i], medians[i]) == Ok(es[i - 0]);
    }
    forall i | 0 <= i < |es| ensures UnambiguousStroke(es[i]) {
      assert EncodeStroke(strokes[i], medians[i], measure) == Ok(es[i]);
    }
    BlobDropsFinalTerminator(es);
    var all := AllStrokeBytes(es);
    assert all[..|all| - 1] == BlobBytes(es);
    ParseBlobRoundTrip(es);
  }

  /** The worked stroke, as the only stroke of a character. */
  lemma ScenarioStrokes(measure: Measure)
    ensures var len := TransformArg(measure(Point(0, 900), [Straight(Point(100, 900))]) / 2, false);
            EncodeStrokesFrom([ScenarioCommands], [ScenarioMedian], 0, EncoderFor(measure))
            == Ok([EncodedStroke(len, 0, 225, [LineSeg(25, 225)])])
  {
    var len := TransformArg(measure(Point(0, 900), [Straight(Point(100, 900))]) / 2, false);
    var e := EncodedStroke(len, 0, 225, [LineSeg(25, 225)]);
    var encode := EncoderFor(measure);
    ScenarioStroke(measure);
    assert encode(ScenarioCommands, ScenarioMedian) == Ok(e);
    assert EncodeStrokesFrom([ScenarioCommands], [ScenarioMedian], 1, encode) == Ok([]);
    assert [e] + [] == [e];
  }

  /** A character whose strokes encode is their bytes without the final terminator. */
  lemma CharacterOfStrokes(strokes: seq<seq<Command>>, medians: seq<seq<Point>>, measure: Measure, es: seq<EncodedStroke>)
    requires EncodeStrokesFrom(strokes, medians, 0, EncoderFor(measure)) == Ok(es) && |es| > 0
    ensures |AllStrokeBytes(es)| > 0
    ensures EncodeCharacter(strokes, medians, measure) == Ok(AllStrokeBytes(es)[..|AllStrokeBytes(es)| - 1])
  {
    BlobDropsFinalTerminator(es);
  }

  /** The bytes of a one-line stroke from (0, 900) to (100, 900), terminator included. */
  lemma ScenarioBytes(len: Byte)
    ensures AllStrokeBytes([EncodedStroke(len, 0, 225, [LineSeg(25, 225)])]) == [len, 0, 225, 1, 25, 225, 0]
  {
    var e := EncodedStroke(len, 0, 225, [LineSeg(25, 225)]);
    assert StrokeBody(e) == [len, 0, 225] + [1, 25, 225];
    assert StrokeBytes(e) == [len, 0, 225, 1, 25, 225, 0];
    assert [e][1..] == [];
    assert AllStrokeBytes([e]) == StrokeBytes(e) + AllStrokeBytes([]);
  }

  /** The same bytes without the terminator. */
  lemma ScenarioBlob(len: Byte)
    ensures var all := AllStrokeBytes([EncodedStroke(len, 0, 225, [LineSeg(25, 225)])]);
            |all| == 7 && all[..|all| - 1] == [len, 0, 225, 1, 25, 225]
  {
    ScenarioBytes(len);
  }

  /** A character whose only stroke encodes as one line from (0, 900) to (100, 900). */
  lemma OneLineCharacter(strokes: seq<seq<Command>>, medians: seq<seq<Point>>, measure: Measure, len: Byte)
    requires EncodeStrokesFrom(strokes, medians, 0, EncoderFor(measure)) == Ok([EncodedStroke(len, 0, 225, [LineSeg(25, 225)])])
    ensures EncodeCharacter(strokes, medians, measure) == Ok([len, 0, 225, 1, 25, 225])
  {
    var es := [EncodedStroke(len, 0, 225, [LineSeg(25, 225)])];
    CharacterOfStrokes(strokes, medians, measure, es);
    ScenarioBlob(len);
  }

  /**
   * The worked stroke as a whole character: the blob is the length byte, the
   * start (0, 900), one line to (100, 900), and no terminator.
   */
  lemma SingleLineScenario(measure: Measure)
    ensures EncodeCharacter([ScenarioCommands], [ScenarioMedian], measure)
            == Ok([TransformArg(measure(Point(0, 900), [Straight(Point(100, 900))]) / 2, false), 0, 225, 1, 25, 225])
  {
    var len := TransformArg(measure(Point(0, 900), [Straight(Point(100, 900))]) / 2, false);
    ScenarioStrokes(measure);
    OneLineCharacter([ScenarioCommands], [ScenarioMedian], measure, len);
  }
}

=== FILE: charlist.dfy ===
/**
 * `readChars` and `codePoints`: a character list file, one line at a time,
 * becomes the duplicate-free list of the code points it names, in the order
 * they are first seen. Lines are Java strings, sequences of UTF-16 code units.
 */
module CharList {
  import opened Seqs

  /** A Java `char`: one UTF-16 code unit. */
  type CodeUnit = c: int | 0 <= c < 0x1_0000

  const MIN_HIGH_SURROGATE := 0xD800
  const MIN_LOW_SURROGATE := 0xDC00
  const MIN_SUPPLEMENTARY_CODE_POINT := 0x1_0000
  const MAX_CODE_POINT := 0x10_FFFF

  predicate IsHighSurrogate(c: int) { 0xD800 <= c <= 0xDBFF }
  predicate IsLowSurrogate(c: int) { 0xDC00 <= c <= 0xDFFF }

  /** A Unicode scalar value: a code point that is not a surrogate. */
  predicate IsScalar(cp: int) { 0 <= cp <= MAX_CODE_POINT && !IsHighSurrogate(cp) && !IsLowSurrogate(cp) }

  // ---------------------------------------------------------------------
  // String.trim
  // ---------------------------------------------------------------------

  /** `trim` removes every unit up to and including the space, at both ends. */
  predicate IsTrimmable(c: CodeUnit) { c <= 0x20 }

  function TrimStart(s: seq<CodeUnit>, st: nat): (r: nat)
    requires st <= |s|
    ensures st <= r <= |s|
    ensures forall i :: st <= i < r ==> IsTrimmable(s[i])
    ensures r < |s| ==> !IsTrimmable(s[r])
    decreases |s| - st
  {
    if st < |s| && IsTrimmable(s[st]) then TrimStart(s, st + 1) else st
  }

  function TrimEnd(s: seq<CodeUnit>, st: nat, len: nat): (r: nat)
    requires st <= len <= |s|
    ensures st <= r <= len
    ensures forall i :: r <= i < len ==> IsTrimmable(s[i])
    ensures st < r ==> !IsTrimmable(s[r - 1])
  {
    if st < len && IsTrimmable(s[len - 1]) then TrimEnd(s, st, len - 1) else len
  }

  /**
   * `String.trim`: the line without its leading and trailing units up to the
   * space; what is left starts and ends with a unit above the space.
   */
  function Trim(s: seq<CodeUnit>): (t: seq<CodeUnit>)
    ensures |t| <= |s|
    ensures |t| > 0 ==> !IsTrimmable(t[0]) && !IsTrimmable(t[|t| - 1])
    ensures var st := TrimStart(s, 0);
            && st + |t| <= |s| && t == s[st..st + |t|]
            && (forall i :: 0 <= i < st ==> IsTrimmable(s[i]))
            && (forall i :: st + |t| <= i < |s| ==> IsTrimmable(s[i]))
  {
    var st := TrimStart(s, 0);
    var len := TrimEnd(s, st, |s|);
    s[st..len]
  }

  // ---------------------------------------------------------------------
  // codePoints
  // ---------------------------------------------------------------------

  /** `Character.toCodePoint`. */
  function ToCodePoint(high: int, low: int): int {
    (high - MIN_HIGH_SURROGATE) * 1024 + (low - MIN_LOW_SURROGATE) + MIN_SUPPLEMENTARY_CODE_POINT
  }

  /**
   * `Character.codePointAt`: a high surrogate followed by a low one is one
   * code point; any other unit, paired or not, is its own code point.
   */
  function CodePointAt(s: seq<CodeUnit>, i: nat): (cp: int)
    requires i < |s|
    ensures 0 <= cp <= MAX_CODE_POINT
    ensures cp >= MIN_SUPPLEMENTARY_CODE_POINT <==>
            i + 1 < |s| && IsHighSurrogate(s[i]) && IsLowSurrogate(s[i + 1])
  {
    if IsHighSurrogate(s[i]) && i + 1 < |s| && IsLowSurrogate(s[i + 1]) then ToCodePoint(s[i], s[i + 1])
    else s[i]
  }

  /** `Character.charCount`. */
  function CharCount(cp: int): nat {
    if cp >= MIN_SUPPLEMENTARY_CODE_POINT then 2 else 1
  }

  /** The code points the iterator yields from offset `i` to the end. */
  function CodePointsFrom(s: seq<CodeUnit>, i: nat): (cps: seq<int>)
    requires i <= |s|
    ensures |cps| <= |s| - i
    ensures forall k :: 0 <= k < |cps| ==> 0 <= cps[k] <= MAX_CODE_POINT
    decreases |s| - i
  {
    if i == |s| then []
    else
      var cp := CodePointAt(s, i);
      [cp] + CodePointsFrom(s, i + CharCount(cp))
  }

  /** The iterator yields the code point at its offset, then moves past its units. */
  lemma CodePointsFromCons(s: seq<CodeUnit>, i: nat)
    requires i < |s|
    ensures i + CharCount(CodePointAt(s, i)) <= |s|
    ensures CodePointsFrom(s, i) == [CodePointAt(s, i)] + CodePointsFrom(s, i + CharCount(CodePointAt(s, i)))
  {
  }

  /** Each code point the iterator yields takes one or two units. */
  lemma {:induction false} CodePointsFromUnits(s: seq<CodeUnit>, i: nat)
    requires i <= |s|
    ensures |CodePointsFrom(s, i)| <= |s| - i <= 2 * |CodePointsFrom(s, i)|
    decreases |s| - i
  {
    if i < |s| {
      CodePointsFromCons(s, i);
      CodePointsFromUnits(s, i + CharCount(CodePointAt(s, i)));
    }
  }

  lemma CodePointsUnits(s: seq<CodeUnit>)
    ensures |CodePoints(s)| <= |s| <= 2 * |CodePoints(s)|
  {
    CodePointsFromUnits(s, 0);
  }

  function CodePoints(s: seq<CodeUnit>): (cps: seq<int>)
    ensures |cps| <= |s|
    ensures forall k :: 0 <= k < |cps| ==> 0 <= cps[k] <= MAX_CODE_POINT
  {
    CodePointsFrom(s, 0)
  }

  /** The UTF-16 encoding of one code point: one unit, or a surrogate pair above 0xFFFF. */
  function Units(cp: int): (us: seq<CodeUnit>)
    requires 0 <= cp <= MAX_CODE_POINT
    ensures 1 <= |us| <= 2
  {
    if cp < MIN_SUPPLEMENTARY_CODE_POINT then [cp]
    else
      var v := cp - MIN_SUPPLEMENTARY_CODE_POINT;
      [MIN_HIGH_SURROGATE + v / 1024, MIN_LOW_SURROGATE + v % 1024]
  }

  function ToUtf16(cps: seq<int>): seq<CodeUnit>
    requires forall k :: 0 <= k < |cps| ==> 0 <= cps[k] <= MAX_CODE_POINT
  {
    if |cps| == 0 then [] else Units(cps[0]) + ToUtf16(cps[1..])
  }

  /** A surrogate pair's code point is encoded back to the same pair. */
  lemma PairRoundTrip(high: int, low: int)
    requires IsHighSurrogate(high) && IsLowSurrogate(low)
    ensures Units(ToCodePoint(high, low)) == [high, low]
  {
    var v := ToCodePoint(high, low) - MIN_SUPPLEMENTARY_CODE_POINT;
    assert v == (high - MIN_HIGH_SURROGATE) * 1024 + (low - MIN_LOW_SURROGATE);
    DivModOf(v, high - MIN_HIGH_SURROGATE, low - MIN_LOW_SURROGATE);
  }

  lemma DivModOf(v: int, q: int, r: int)
    requires 0 <= r < 1024 && v == q * 1024 + r
    ensures v / 1024 == q && v % 1024 == r
  {
  }

  /**
   * Encoding the iterated code points again gives back the units, whatever
   * they are: unpaired surrogates pass through as themselves.
   */
  lemma {:induction false} CodePointsFromRoundTrip(s: seq<CodeUnit>, i: nat)
    requires i <= |s|
    ensures ToUtf16(CodePointsFrom(s, i)) == s[i..]
    decreases |s| - i
  {
    if i < |s| {
      var cp := CodePointAt(s, i);
      var n := CharCount(cp);
      CodePointsFromRoundTrip(s, i + n);
      var rest := CodePointsFrom(s, i + n);
      assert CodePointsFrom(s, i) == [cp] + rest;
      assert ([cp] + rest)[1..] == rest;
      if n == 2 {
        PairRoundTrip(s[i], s[i + 1]);
        assert s[i..] == [s[i], s[i + 1]] + s[i + 2..];
      } else {
        assert s[i..] == [s[i]] + s[i + 1..];
      }
    }
  }

  lemma CodePointsRoundTrip(s: seq<CodeUnit>)
    ensures ToUtf16(CodePoints(s)) == s
  {
    CodePointsFromRoundTrip(s, 0);
  }

  /** What follows a prefix is iterated as if the prefix were not there. */
  lemma {:induction false} CodePointsFromShift(p: seq<CodeUnit>, s: seq<CodeUnit>, i: nat)
    requires i <= |s|
    ensures CodePointsFrom(p + s, |p| + i) == CodePointsFrom(s, i)
    decreases |s| - i
  {
    if i < |s| {
      assert (p + s)[|p| + i] == s[i];
      assert |p| + i + 1 < |p + s| ==> (p + s)[|p| + i + 1] == s[i + 1];
      var cp := CodePointAt(s, i);
      assert CodePointAt(p + s, |p| + i) == cp;
      CodePointsFromShift(p, s, i + CharCount(cp));
    }
  }

  /** Scalar values survive encoding and iteration unchanged. */
  lemma {:induction false} ScalarsRoundTrip(cps: seq<int>)
    requires forall k :: 0 <= k < |cps| ==> 0 <= cps[k] <= MAX_CODE_POINT && IsScalar(cps[k])
    ensures CodePoints(ToUtf16(cps)) == cps
  {
    if |cps| > 0 {
      var c := cps[0];
      var us := Units(c);
      var rest := ToUtf16(cps[1..]);
      ScalarsRoundTrip(cps[1..]);
      CodePointsFromShift(us, rest, 0);
      if c >= MIN_SUPPLEMENTARY_CODE_POINT {
        var v := c - MIN_SUPPLEMENTARY_CODE_POINT;
        DivModOf(v, v / 1024, v % 1024);
        assert ToCodePoint(us[0], us[1]) == c;
        assert CodePointAt(us + rest, 0) == c;
      } else {
        assert CodePointAt(us + rest, 0) == c;
      }
      assert CodePointsFrom(us + rest, 0) == [c] + CodePointsFrom(us + rest, |us|);
      assert cps == [c] + cps[1..];
    }
  }

  // ---------------------------------------------------------------------
  // readChars
  // ---------------------------------------------------------------------

  /** Blank lines, and lines whose raw text starts with `//`, are skipped. */
  predicate Skipped(line: seq<CodeUnit>) {
    |Trim(line)| == 0 || (|line| >= 2 && line[0] == '/' as int && line[1] == '/' as int)
  }

  /** The code points of the lines that are kept, line after line. */
  function KeptCodePoints(lines: seq<seq<CodeUnit>>): seq<int> {
    if |lines| == 0 then []
    else if Skipped(lines[0]) then KeptCodePoints(lines[1..])
    else CodePoints(Trim(lines[0])) + KeptCodePoints(lines[1..])
  }

  /** A code point is kept exactly when some kept line names it. */
  lemma {:induction false} KeptCodePointsContents(lines: seq<seq<CodeUnit>>, c: int)
    ensures c in KeptCodePoints(lines) <==>
            exists i :: 0 <= i < |lines| && !Skipped(lines[i]) && c in CodePoints(Trim(lines[i]))
  {
    if |lines| > 0 {
      KeptCodePointsContents(lines[1..], c);
      if c in KeptCodePoints(lines) {
        if !Skipped(lines[0]) && c in CodePoints(Trim(lines[0])) {
        } else {
          var i :| 0 <= i < |lines[1..]| && !Skipped(lines[1..][i]) && c in CodePoints(Trim(lines[1..][i]));
          assert lines[i + 1] == lines[1..][i];
        }
      } else {
        forall i | 0 <= i < |lines| && !Skipped(lines[i]) ensures c !in CodePoints(Trim(lines[i])) {
          if i > 0 {
            assert lines[1..][i - 1] == lines[i];
          }
        }
      }
    }
  }

  /**
   * `readChars` over the lines of the file: every kept line is trimmed and
   * its code points are added to an insertion-ordered set.
   */
  method ReadChars(lines: seq<seq<CodeUnit>>) returns (result: seq<int>)
    ensures result == AddAll([], KeptCodePoints(lines))
    ensures Distinct(result)
    ensures forall c :: c in result <==> c in KeptCodePoints(lines)
  {
    result := [];
    var i := 0;
    while i < |lines|
      invariant 0 <= i <= |lines|
      invariant AddAll(result, KeptCodePoints(lines[i..])) == AddAll([], KeptCodePoints(lines))
    {
      var nextLine := lines[i];
      assert lines[i..][1..] == lines[i + 1..];
      if !Skipped(nextLine) {
        var prev := result;
        result := AddCodePoints(result, Trim(nextLine));
        AddAllConcat(prev, CodePoints(Trim(nextLine)), KeptCodePoints(lines[i + 1..]));
      }
      i := i + 1;
    }
  }

  /** The inner loop of `readChars`: each code point the iterator yields goes into the set. */
  method AddCodePoints(acc: seq<int>, line: seq<CodeUnit>) returns (result: seq<int>)
    ensures result == AddAll(acc, CodePoints(line))
  {
    result := acc;
    var offset := 0;
    while offset < |line|
      invariant 0 <= offset <= |line|
      invariant AddAll(result, CodePointsFrom(line, offset)) == AddAll(acc, CodePoints(line))
      decreases |line| - offset
    {
      var cp := CodePointAt(line, offset);
      AddCodePointStep(result, line, offset);
      result := if cp in result then result else result + [cp];
      offset := offset + CharCount(cp);
    }
  }

  /** Adding the code point at an offset, then the rest, is adding everything from that offset. */
  lemma AddCodePointStep(acc: seq<int>, line: seq<CodeUnit>, offset: nat)
    requires offset < |line|
    ensures var cp := CodePointAt(line, offset);
            && offset + CharCount(cp) <= |line|
            && AddAll(if cp in acc then acc else acc + [cp], CodePointsFrom(line, offset + CharCount(cp)))
               == AddAll(acc, CodePointsFrom(line, offset))
  {
    var cp := CodePointAt(line, offset);
    CodePointsFromCons(line, offset);
    AddAllCons(acc, cp, CodePointsFrom(line, offset + CharCount(cp)));
  }

  /**
   * The characters come out in the order they are first named: the one that
   * appears first in the kept lines comes first.
   */
  lemma ReadCharsFirstSeenOrder(lines: seq<seq<CodeUnit>>, i: nat, j: nat)
    requires i < j < |AddAll([], KeptCodePoints(lines))|
    ensures var r, kept := AddAll([], KeptCodePoints(lines)), KeptCodePoints(lines);
            r[i] in kept && r[j] in kept && FirstIndex(kept, r[i]) < FirstIndex(kept, r[j])
  {
    AddAllFirstSeenOrder([], KeptCodePoints(lines), i, j);
  }
}

=== FILE: container.dfy ===
/**
 * `writeStrokeData`: the strokes file is a 16-bit entry count, one 4-byte
 * index record per entry (code point, blob length), then the blobs of the
 * included entries back to back, every number little-endian.
 */
module Container {
  import opened Results
  import opened Bytes
  import opened Seqs

  /** One entry of the character map, in map order: a code point and its blob. */
  datatype Entry = Entry(cp: int, blob: seq<Byte>)

  /** The allow-set of the source; `None` stands for null, which lets every character through. */
  predicate Included(allow: Option<set<int>>, cp: int) {
    allow.None? || cp in allow.value
  }

  /** What an entry stores in the data section: its blob when included, nothing otherwise. */
  function Stored(e: Entry, allow: Option<set<int>>): seq<Byte> {
    if Included(allow, e.cp) then e.blob else []
  }

  /** The index record of an entry: its code point, then the length of what it stores. */
  function IndexRecord(e: Entry, allow: Option<set<int>>): (r: seq<Byte>)
    ensures |r| == 4
  {
    FillBuffer(e.cp) + FillBuffer(|Stored(e, allow)|)
  }

  function Records(es: seq<Entry>, allow: Option<set<int>>): (rs: seq<seq<Byte>>)
    ensures |rs| == |es|
    ensures forall i :: 0 <= i < |es| ==> rs[i] == IndexRecord(es[i], allow)
  {
    seq(|es|, i requires 0 <= i < |es| => IndexRecord(es[i], allow))
  }

  function Blobs(es: seq<Entry>, allow: Option<set<int>>): (bs: seq<seq<Byte>>)
    ensures |bs| == |es|
    ensures forall i :: 0 <= i < |es| ==> bs[i] == Stored(es[i], allow)
  {
    seq(|es|, i requires 0 <= i < |es| => Stored(es[i], allow))
  }

  /** How many entries have their blob written. */
  function IncludedCount(es: seq<Entry>, allow: Option<set<int>>): nat {
    if |es| == 0 then 0
    else IncludedCount(es[..|es| - 1], allow) + (if Included(allow, es[|es| - 1].cp) then 1 else 0)
  }

  /** The whole file: count, index, data. */
  function ContainerBytes(es: seq<Entry>, allow: Option<set<int>>): seq<Byte> {
    FillBuffer(|es|) + Flatten(Records(es, allow)) + Flatten(Blobs(es, allow))
  }

  /**
   * The source in its two passes: the first fills the code point to length
   * map and the data stream, the second writes the index from that map. The
   * result is the number of included entries, the number of bytes and the bytes.
   */
  method WriteStrokeData(es: seq<Entry>, allow: Option<set<int>>)
    returns (numWritten: nat, bytesWritten: nat, out: seq<Byte>)
    ensures out == ContainerBytes(es, allow)
    ensures numWritten == IncludedCount(es, allow)
    ensures bytesWritten == |out| == 2 + 4 * |es| + SumLengths(Blobs(es, allow))
  {
    var indexMap, data;
    numWritten, indexMap, data := DataPass(es, allow);
    var index := IndexPass(es, allow, indexMap);
    out := FillBuffer(|indexMap|) + index + data;
    bytesWritten := 2 + |index| + |data|;
    FlattenChunkLength(Records(es, allow), 4);
    FlattenLength(Blobs(es, allow));
  }

  /**
   * The first pass: every entry's code point and stored length go into the
   * index map, in order; the included blobs go to the data stream and are counted.
   */
  method DataPass(es: seq<Entry>, allow: Option<set<int>>)
    returns (numWritten: nat, indexMap: seq<(int, int)>, data: seq<Byte>)
    ensures numWritten == IncludedCount(es, allow)
    ensures |indexMap| == |es|
    ensures forall j :: 0 <= j < |es| ==> indexMap[j] == (es[j].cp, |Stored(es[j], allow)|)
    ensures data == Flatten(Blobs(es, allow))
  {
    data := [];
    indexMap := [];
    numWritten := 0;
    var i := 0;
    while i < |es|
      invariant 0 <= i <= |es|
      invariant data == Flatten(Blobs(es, allow)[..i])
      invariant numWritten == IncludedCount(es[..i], allow)
      invariant |indexMap| == i
      invariant forall j :: 0 <= j < i ==> indexMap[j] == (es[j].cp, |Stored(es[j], allow)|)
    {
      var e := es[i];
      var blob: Option<seq<Byte>> := if Included(allow, e.cp) then Some(e.blob) else None;
      indexMap := indexMap + [(e.cp, if blob.None? then 0 else |blob.value|)];
      if blob.Some? {
        data := data + blob.value;
        numWritten := numWritten + 1;
      }
      FlattenPrefix(Blobs(es, allow), i);
      CountStep(es, allow, i);
      i := i + 1;
    }
    assert es[..i] == es;
    assert Blobs(es, allow)[..i] == Blobs(es, allow);
  }

  /** The second pass: one record per index map entry, code point then length. */
  method IndexPass(es: seq<Entry>, allow: Option<set<int>>, indexMap: seq<(int, int)>) returns (index: seq<Byte>)
    requires |indexMap| == |es|
    requires forall j :: 0 <= j < |es| ==> indexMap[j] == (es[j].cp, |Stored(es[j], allow)|)
    ensures index == Flatten(Records(es, allow))
  {
    index := [];
    var k := 0;
    while k < |indexMap|
      invariant 0 <= k <= |indexMap|
      invariant index == Flatten(Records(es, allow)[..k])
    {
      var (cp, length) := indexMap[k];
      index := index + FillBuffer(cp) + FillBuffer(length);
      FlattenPrefix(Records(es, allow), k);
      k := k + 1;
    }
    assert Records(es, allow)[..k] == Records(es, allow);
  }

  /** One more entry adds one to the count exactly when it is included. */
  lemma CountStep(es: seq<Entry>, allow: Option<set<int>>, i: nat)
    requires i < |es|
    ensures IncludedCount(es[..i + 1], allow)
            == IncludedCount(es[..i], allow) + (if Included(allow, es[i].cp) then 1 else 0)
  {
    assert es[..i + 1][..i] == es[..i];
  }

  // ---------------------------------------------------------------------
  // The layout, and a reader for it
  // ---------------------------------------------------------------------

  /**
   * The file is the count, 4 bytes per entry, and the stored bytes: it
   * starts with the entry count, cut to 16 bits.
   */
  lemma ContainerHeader(es: seq<Entry>, allow: Option<set<int>>)
    ensures var b := ContainerBytes(es, allow);
            && |b| == 2 + 4 * |es| + SumLengths(Blobs(es, allow))
            && ReadU16(b, 0) == |es| % 65536
  {
    var b := ContainerBytes(es, allow);
    FlattenChunkLength(Records(es, allow), 4);
    FlattenLength(Blobs(es, allow));
    assert b[0] == FillBuffer(|es|)[0] && b[1] == FillBuffer(|es|)[1];
  }

  /**
   * Entry `j` has its record at `2 + 4 * j`: its code point, then the length
   * of what it stores (0 when the allow-set leaves it out), both cut to 16 bits.
   */
  lemma ContainerLayout(es: seq<Entry>, allow: Option<set<int>>, j: nat)
    requires j < |es|
    ensures var b := ContainerBytes(es, allow);
            && 2 + 4 * |es| <= |b|
            && b[2 + 4 * j..6 + 4 * j] == IndexRecord(es[j], allow)
            && ReadU16(b, 2 + 4 * j) == es[j].cp % 65536
            && ReadU16(b, 4 + 4 * j) == |Stored(es[j], allow)| % 65536
            && (!Included(allow, es[j].cp) ==> ReadU16(b, 4 + 4 * j) == 0)
  {
    RecordAt(es, allow, j);
    ReadRecord(ContainerBytes(es, allow), 2 + 4 * j, IndexRecord(es[j], allow));
  }

  /** Record `j` sits right after the count, behind the `j` records before it. */
  lemma RecordAt(es: seq<Entry>, allow: Option<set<int>>, j: nat)
    requires j < |es|
    ensures |ContainerBytes(es, allow)| >= 2 + 4 * |es|
    ensures ContainerBytes(es, allow)[2 + 4 * j..6 + 4 * j] == IndexRecord(es[j], allow)
  {
    var index := Flatten(Records(es, allow));
    FlattenChunkLength(Records(es, allow), 4);
    FlattenChunkAt(Records(es, allow), 4, j);
    SliceWithin(FillBuffer(|es|), index, Flatten(Blobs(es, allow)), 4 * j, 4 * j + 4);
  }

  lemma SliceWithin<T>(a: seq<T>, m: seq<T>, c: seq<T>, lo: nat, hi: nat)
    requires lo <= hi <= |m|
    ensures (a + m + c)[|a| + lo..|a| + hi] == m[lo..hi]
  {
  }

  /** The two fields of a record, read where the record lies. */
  lemma ReadRecord(b: seq<Byte>, at: nat, rec: seq<Byte>)
    requires |rec| == 4 && at + 4 <= |b| && b[at..at + 4] == rec
    ensures ReadU16(b, at) == ReadU16(rec, 0) && ReadU16(b, at + 2) == ReadU16(rec, 2)
  {
    assert b[at] == rec[0] && b[at + 1] == rec[1] && b[at + 2] == rec[2] && b[at + 3] == rec[3];
  }

  /**
   * The stored bytes of entry `j` follow the index, after the stored bytes of
   * the entries before it.
   */
  lemma DataLayout(es: seq<Entry>, allow: Option<set<int>>, j: nat)
    requires j < |es|
    ensures var b := ContainerBytes(es, allow);
            var at := 2 + 4 * |es| + SumLengths(Blobs(es, allow)[..j]);
            && at + |Stored(es[j], allow)| <= |b|
            && b[at..at + |Stored(es[j], allow)|] == Stored(es[j], allow)
  {
    var bs := Blobs(es, allow);
    var head := FillBuffer(|es|) + Flatten(Records(es, allow));
    FlattenChunkLength(Records(es, allow), 4);
    FlattenSplit(bs, j);
    FlattenLength(bs[..j]);
    var before := Flatten(bs[..j]);
    SliceMiddle(before, bs[j], Flatten(bs[j + 1..]));
    SliceAfter(head, Flatten(bs), |before|, |before| + |bs[j]|);
  }

  lemma SliceAfter<T>(a: seq<T>, m: seq<T>, lo: nat, hi: nat)
    requires lo <= hi <= |m|
    ensures (a + m)[|a| + lo..|a| + hi] == m[lo..hi]
  {
  }

  lemma SliceMiddle<T>(a: seq<T>, m: seq<T>, c: seq<T>)
    ensures (a + m + c)[|a|..|a| + |m|] == m
  {
  }

  /**
   * Cuts consecutive blobs of the given lengths from `off` on; they must end
   * exactly at the end of the bytes.
   */
  function SliceBlobs(b: seq<Byte>, off: nat, lens: seq<nat>): (r: Option<seq<seq<Byte>>>)
    requires off <= |b|
    ensures r.Some? ==> |r.value| == |lens|
    ensures r.Some? ==> forall i :: 0 <= i < |lens| ==> |r.value[i]| == lens[i]
    decreases |lens|
  {
    if |lens| == 0 then (if off == |b| then Some([]) else None)
    else if off + lens[0] > |b| then None
    else
      match SliceBlobs(b, off + lens[0], lens[1..])
      case None => None
      case Some(rest) => Some([b[off..off + lens[0]]] + rest)
  }

  /**
   * Reads a strokes file back: the count, the records, then each entry's
   * stored bytes by the length in its record. Anything short or left over
   * is rejected.
   */
  function ParseContainer(b: seq<Byte>): (r: Option<seq<Entry>>)
    ensures r.Some? ==> |b| >= 2 && |r.value| == ReadU16(b, 0)
    ensures r.Some? ==> |b| == 2 + 4 * |r.value| + SumLengths(seq(|r.value|, i requires 0 <= i < |r.value| => r.value[i].blob))
  {
    if |b| < 2 then None
    else
      var n := ReadU16(b, 0);
      if |b| < 2 + 4 * n then None
      else
        match SliceBlobs(b, 2 + 4 * n, RecordLengths(b, n))
        case None => None
        case Some(blobs) =>
          SliceBlobsLength(b, 2 + 4 * n, RecordLengths(b, n));
          var es := EntriesOf(b, n, blobs);
          assert seq(n, i requires 0 <= i < n => es[i].blob) == blobs;
          Some(es)
  }

  /** The length fields of the first `n` records. */
  function RecordLengths(b: seq<Byte>, n: nat): (lens: seq<nat>)
    requires 2 + 4 * n <= |b|
    ensures |lens| == n
    ensures forall j :: 0 <= j < n ==> lens[j] == ReadU16(b, 4 + 4 * j)
  {
    seq(n, j requires 0 <= j < n => ReadU16(b, 4 + 4 * j))
  }

  /** The code points of the first `n` records, paired with their blobs. */
  function EntriesOf(b: seq<Byte>, n: nat, blobs: seq<seq<Byte>>): (es: seq<Entry>)
    requires 2 + 4 * n <= |b| && |blobs| == n
    ensures |es| == n
    ensures forall j :: 0 <= j < n ==> es[j] == Entry(ReadU16(b, 2 + 4 * j), blobs[j])
  {
    seq(n, j requires 0 <= j < n => Entry(ReadU16(b, 2 + 4 * j), blobs[j]))
  }

  /** Slicing succeeds only when the lengths add up to what is left. */
  lemma {:induction false} SliceBlobsLength(b: seq<Byte>, off: nat, lens: seq<nat>)
    requires off <= |b| && SliceBlobs(b, off, lens).Some?
    ensures |b| == off + SumLengths(SliceBlobs(b, off, lens).value)
    decreases |lens|
  {
    if |lens| > 0 {
      SliceBlobsLength(b, off + lens[0], lens[1..]);
      var r := SliceBlobs(b, off, lens).value;
      assert r[1..] == SliceBlobs(b, off + lens[0], lens[1..]).value;
    }
  }

  /** Slicing a flattening by the chunk lengths gives the chunks back. */
  lemma {:induction false} SliceFlatten(pre: seq<Byte>, bs: seq<seq<Byte>>, lens: seq<nat>)
    requires |lens| == |bs| && forall i :: 0 <= i < |bs| ==> lens[i] == |bs[i]|
    ensures SliceBlobs(pre + Flatten(bs), |pre|, lens) == Some(bs)
    decreases |bs|
  {
    if |bs| == 0 {
      assert pre + Flatten(bs) == pre;
    } else {
      var b := pre + Flatten(bs);
      assert b == (pre + bs[0]) + Flatten(bs[1..]);
      SliceFlatten(pre + bs[0], bs[1..], lens[1..]);
      assert b[|pre|..|pre| + lens[0]] == bs[0];
      assert [bs[0]] + bs[1..] == bs;
    }
  }

  /** Every count, code point and stored length fits in the 16 bits the file gives it. */
  predicate FitsU16(es: seq<Entry>) {
    && |es| < 65536
    && forall i :: 0 <= i < |es| ==> 0 <= es[i].cp < 65536 && |es[i].blob| < 65536
  }

  /** The entries as the file keeps them: excluded ones with no bytes. */
  function StoredEntries(es: seq<Entry>, allow: Option<set<int>>): (r: seq<Entry>)
    ensures |r| == |es|
    ensures forall i :: 0 <= i < |es| ==> r[i] == Entry(es[i].cp, Stored(es[i], allow))
  {
    seq(|es|, i requires 0 <= i < |es| => Entry(es[i].cp, Stored(es[i], allow)))
  }

  /**
   * When everything fits in 16 bits, reading the file gives back every entry
   * in map order, with its blob when included and no bytes otherwise.
   */
  lemma ContainerRoundTrip(es: seq<Entry>, allow: Option<set<int>>)
    requires FitsU16(es)
    ensures ParseContainer(ContainerBytes(es, allow)) == Some(StoredEntries(es, allow))
  {
    var b := ContainerBytes(es, allow);
    var n := |es|;
    var bs := Blobs(es, allow);
    var pre := FillBuffer(n) + Flatten(Records(es, allow));
    FlattenChunkLength(Records(es, allow), 4);
    ContainerHeader(es, allow);
    SmallMod(n);
    var lens := RecordLengths(b, n);
    forall j | 0 <= j < n ensures lens[j] == |bs[j]| {
      RecordFields(es, allow, j);
    }
    SliceFlatten(pre, bs, lens);
    ParseContainerOk(b, bs);
    var got := EntriesOf(b, n, bs);
    forall j | 0 <= j < n ensures got[j] == StoredEntries(es, allow)[j] {
      RecordFields(es, allow, j);
    }
    assert got == StoredEntries(es, allow);
  }

  /** Within 16 bits, record `j` holds exactly the code point and the stored length. */
  lemma RecordFields(es: seq<Entry>, allow: Option<set<int>>, j: nat)
    requires FitsU16(es) && j < |es|
    ensures 2 + 4 * |es| <= |ContainerBytes(es, allow)|
    ensures ReadU16(ContainerBytes(es, allow), 2 + 4 * j) == es[j].cp
    ensures ReadU16(ContainerBytes(es, allow), 4 + 4 * j) == |Stored(es[j], allow)|
  {
    ContainerLayout(es, allow, j);
    SmallMod(es[j].cp);
    SmallMod(|Stored(es[j], allow)|);
  }

  lemma SmallMod(x: int)
    requires 0 <= x < 65536
    ensures x % 65536 == x
  {
  }

  lemma ParseContainerOk(b: seq<Byte>, blobs: seq<seq<Byte>>)
    requires |b| >= 2 && 2 + 4 * ReadU16(b, 0) <= |b|
    requires SliceBlobs(b, 2 + 4 * ReadU16(b, 0), RecordLengths(b, ReadU16(b, 0))) == Some(blobs)
    ensures ParseContainer(b) == Some(EntriesOf(b, ReadU16(b, 0), blobs))
  {
  }
}

=== FILE: contour.dfy ===
/**
 * The contour canonicalizer of `createBlob`: tokenised path commands become
 * contour points, a start point near the median start is chosen, a redundant
 * leading move is removed, and the contour is walked circularly from there.
 */
module Contour {
  import opened Results
  import opened Geometry
  import opened Bytes

  /**
   * What the stroke text holds one character past the end of a command,
   * that is, after the space that follows it: the close marker `Z`, some
   * other character, or nothing because the text ends there.
   */
  datatype Lookahead = Closes | Continues | EndOfText

  /**
   * One matched path command: its code letter, its integer arguments in
   * source coordinates (two, or four for a quad), and what follows it.
   */
  datatype Command = Command(code: char, args: seq<int>, next: Lookahead)

  /** The subpath start before any move: the source's `startX = -1, startY = -1`. */
  const NO_SUBPATH := Point(-1, -1)

  /** The point designated by a command's first coordinate pair, in glyph space. */
  function FirstPoint(c: Command): Point
    requires |c.args| >= 2
  {
    Flip(c.args[0], c.args[1])
  }

  /** A command every argument of which the source can parse and whose code it knows. */
  predicate WellFormed(c: Command) {
    && |c.args| >= 2
    && (c.code == 'M' || c.code == 'L' || (c.code == 'Q' && |c.args| >= 4))
  }

  /** What one command does to the contour list. */
  datatype Step =
    | Append(point: ContourPoint, subpathStart: Point)
    | Elide
    | Reject(error: BuildError)

  /**
   * A line to the point where the current subpath started: the only case in
   * which the loop looks at the character after the command.
   */
  predicate ReturnsToStart(c: Command, subpathStart: Point) {
    c.code == 'L' && |c.args| >= 2 && FirstPoint(c) == subpathStart
  }

  /**
   * One turn of the command loop: both leading arguments are parsed first,
   * then the code decides. A line back to the subpath start that the close
   * marker follows is dropped, and one at the very end of the text reads past
   * it; a move opens a new subpath; a quad keeps its control point.
   */
  function Interpret(c: Command, subpathStart: Point): (r: Step)
    ensures r.Elide? <==> ReturnsToStart(c, subpathStart) && c.next == Closes
    ensures r.Reject? <==> !WellFormed(c) || (ReturnsToStart(c, subpathStart) && c.next == EndOfText)
    ensures r.Reject? && WellFormed(c) ==> r.error == LookaheadPastEnd
    ensures r.Append? ==> && WellFormed(c)
                          && r.point == ContourOf(c)
                          && r.subpathStart == (if c.code == 'M' then FirstPoint(c) else subpathStart)
  {
    if |c.args| < 2 then Reject(MissingArgument)
    else if c.code == 'M' then Append(Straight(FirstPoint(c)), FirstPoint(c))
    else if c.code == 'L' then
      if FirstPoint(c) == subpathStart then
        match c.next
        case Closes => Elide
        case EndOfText => Reject(LookaheadPastEnd)
        case Continues => Append(Straight(FirstPoint(c)), subpathStart)
      else Append(Straight(FirstPoint(c)), subpathStart)
    else if c.code == 'Q' then
      if |c.args| < 4 then Reject(MissingArgument)
      else Append(Curved(FirstPoint(c), Flip(c.args[2], c.args[3])), subpathStart)
    else Reject(UnknownCurveCode(c.code))
  }

  // ---------------------------------------------------------------------
  // Reference description of the contour list, command by command
  // ---------------------------------------------------------------------

  /** Where the subpath open at command `i` began: the last move before it, or NO_SUBPATH. */
  function SubpathStartAt(cmds: seq<Command>, i: nat): Point
    requires i <= |cmds|
  {
    if i == 0 then NO_SUBPATH
    else if cmds[i - 1].code == 'M' && |cmds[i - 1].args| >= 2 then FirstPoint(cmds[i - 1])
    else SubpathStartAt(cmds, i - 1)
  }

  /** Command `i` is a line back to its subpath start immediately closed by `Z`. */
  predicate IsDegenerateClose(cmds: seq<Command>, i: nat)
    requires i < |cmds|
  {
    ReturnsToStart(cmds[i], SubpathStartAt(cmds, i)) && cmds[i].next == Closes
  }

  /** Command `i` is accepted by the loop: well formed, and not a line back to the start that ends the text. */
  predicate Accepted(cmds: seq<Command>, i: nat)
    requires i < |cmds|
  {
    WellFormed(cmds[i]) && !(ReturnsToStart(cmds[i], SubpathStartAt(cmds, i)) && cmds[i].next == EndOfText)
  }

  predicate AllAcceptedFrom(cmds: seq<Command>, i: nat) {
    forall j :: i <= j < |cmds| ==> Accepted(cmds, j)
  }

  /** The contour point a well-formed command contributes. */
  function ContourOf(c: Command): ContourPoint
    requires WellFormed(c)
  {
    if c.code == 'Q' then Curved(FirstPoint(c), Flip(c.args[2], c.args[3]))
    else Straight(FirstPoint(c))
  }

  /** Every command from `i` on contributes its contour point, except degenerate closing lines. */
  function KeptFrom(cmds: seq<Command>, i: nat): seq<ContourPoint>
    requires i <= |cmds| && AllAcceptedFrom(cmds, i)
    decreases |cmds| - i
  {
    if i == |cmds| then []
    else
      assert Accepted(cmds, i);
      if IsDegenerateClose(cmds, i) then KeptFrom(cmds, i + 1)
      else [ContourOf(cmds[i])] + KeptFrom(cmds, i + 1)
  }

  // ---------------------------------------------------------------------
  // The command loop
  // ---------------------------------------------------------------------

  /**
   * The command loop from command `i` on. The median start is needed only to
   * measure each appended point, so a median without points fails at the
   * first point appended.
   */
  function CollectFrom(cmds: seq<Command>, i: nat, subpathStart: Point, medianStart: Option<Point>)
    : (r: Result<seq<ContourPoint>>)
    requires i <= |cmds| && subpathStart == SubpathStartAt(cmds, i)
    ensures r.Ok? ==> AllAcceptedFrom(cmds, i) && r.value == KeptFrom(cmds, i)
    ensures medianStart.Some? && AllAcceptedFrom(cmds, i) ==> r.Ok?
    ensures r.Ok? && |r.value| > 0 ==> medianStart.Some?
    decreases |cmds| - i
  {
    if i == |cmds| then Ok([])
    else
      match Interpret(cmds[i], subpathStart)
      case Reject(e) => assert !Accepted(cmds, i); Err(e)
      case Elide => CollectFrom(cmds, i + 1, subpathStart, medianStart)
      case Append(p, s) =>
        if medianStart.None? then Err(NoMedianPoint)
        else
          var rest :- CollectFrom(cmds, i + 1, s, medianStart);
          Ok([p] + rest)
  }

  /** The contour list of one stroke's commands. */
  function Collect(cmds: seq<Command>, medianStart: Option<Point>): (r: Result<seq<ContourPoint>>)
    ensures r.Ok? ==> AllAcceptedFrom(cmds, 0)
    ensures medianStart.Some? && AllAcceptedFrom(cmds, 0) ==> r.Ok?
    ensures r.Ok? && |r.value| > 0 ==> medianStart.Some?
  {
    CollectFrom(cmds, 0, NO_SUBPATH, medianStart)
  }

  /**
   * The contour list holds, in command order, the point of every command
   * except the lines back to the subpath start that a close marker follows.
   */
  lemma CollectKeepsAllButDegenerateCloses(cmds: seq<Command>, medianStart: Option<Point>)
    requires Collect(cmds, medianStart).Ok?
    ensures AllAcceptedFrom(cmds, 0) && Collect(cmds, medianStart).value == KeptFrom(cmds, 0)
  {
  }

  /**
   * The canonical start: the first contour point at strictly minimal
   * distance to the median start. A later point at the same distance does
   * not replace it.
   */
  function CanonicalStart(cs: seq<ContourPoint>, medianStart: Point): (k: nat)
    requires |cs| > 0
    ensures k < |cs|
    ensures forall j :: 0 <= j < |cs| ==>
      SquaredDistance(cs[k].target, medianStart) <= SquaredDistance(cs[j].target, medianStart)
    ensures forall j :: 0 <= j < k ==>
      SquaredDistance(cs[k].target, medianStart) < SquaredDistance(cs[j].target, medianStart)
  {
    var k := FirstNearest(Targets(cs), medianStart);
    assert IsFirstNearest(Targets(cs), medianStart, k);
    k
  }

  // ---------------------------------------------------------------------
  // The start index as the source computes it
  // ---------------------------------------------------------------------

  /**
   * The command loop as written: the running minimum is kept while
   * collecting, and the index it records is the number of commands matched
   * so far, elided lines included, although it later indexes the contour
   * list, which skips them.
   */
  function CollectAsWrittenFrom(cmds: seq<Command>, i: nat, subpathStart: Point, medianStart: Option<Point>,
                                acc: seq<ContourPoint>, minDistance: Option<nat>, startIndex: int)
    : (r: Result<(seq<ContourPoint>, int)>)
    requires i <= |cmds|
    decreases |cmds| - i
  {
    if i == |cmds| then Ok((acc, startIndex))
    else
      match Interpret(cmds[i], subpathStart)
      case Reject(e) => Err(e)
      case Elide => CollectAsWrittenFrom(cmds, i + 1, subpathStart, medianStart, acc, minDistance, startIndex)
      case Append(p, s) =>
        if medianStart.None? then Err(NoMedianPoint)
        else
          var d := SquaredDistance(p.target, medianStart.value);
          if minDistance.None? || d < minDistance.value then
            CollectAsWrittenFrom(cmds, i + 1, s, medianStart, acc + [p], Some(d), i)
          else
            CollectAsWrittenFrom(cmds, i + 1, s, medianStart, acc + [p], minDistance, startIndex)
  }

  function CollectAsWritten(cmds: seq<Command>, medianStart: Option<Point>): Result<(seq<ContourPoint>, int)> {
    CollectAsWrittenFrom(cmds, 0, NO_SUBPATH, medianStart, [], None, -1)
  }

  /** As long as no line is elided, the index as written is the canonical start. */
  lemma {:induction false} AsWrittenAgreesWithoutElisionFrom(cmds: seq<Command>, i: nat, medianStart: Point,
                                                             acc: seq<ContourPoint>, minDistance: Option<nat>, startIndex: int)
    requires i <= |cmds| && |acc| == i
    requires forall j :: 0 <= j < |cmds| ==> !IsDegenerateClose(cmds, j)
    requires |acc| == 0 ==> minDistance.None?
    requires |acc| > 0 ==> 0 <= startIndex == FirstNearest(Targets(acc), medianStart)
                           && minDistance == Some(SquaredDistance(acc[startIndex].target, medianStart))
    requires CollectAsWrittenFrom(cmds, i, SubpathStartAt(cmds, i), Some(medianStart), acc, minDistance, startIndex).Ok?
    ensures var (cs, k) := CollectAsWrittenFrom(cmds, i, SubpathStartAt(cmds, i), Some(medianStart), acc, minDistance, startIndex).value;
            |cs| > 0 ==> k == FirstNearest(Targets(cs), medianStart)
    decreases |cmds| - i
  {
    if i < |cmds| {
      assert !IsDegenerateClose(cmds, i);
      match Interpret(cmds[i], SubpathStartAt(cmds, i))
      case Append(p, s) =>
        assert s == SubpathStartAt(cmds, i + 1);
        var d := SquaredDistance(p.target, medianStart);
        var acc' := acc + [p];
        assert Targets(acc') == Targets(acc) + [p.target];
        if |acc| == 0 {
          assert Targets(acc') == [p.target];
          AsWrittenAgreesWithoutElisionFrom(cmds, i + 1, medianStart, acc', Some(d), i);
        } else {
          FirstNearestSnoc(Targets(acc), p.target, medianStart);
          if d < minDistance.value {
            AsWrittenAgreesWithoutElisionFrom(cmds, i + 1, medianStart, acc', Some(d), i);
          } else {
            AsWrittenAgreesWithoutElisionFrom(cmds, i + 1, medianStart, acc', minDistance, startIndex);
          }
        }
    }
  }

  lemma AsWrittenAgreesWithoutElision(cmds: seq<Command>, medianStart: Point)
    requires forall j :: 0 <= j < |cmds| ==> !IsDegenerateClose(cmds, j)
    requires CollectAsWritten(cmds, Some(medianStart)).Ok?
    ensures var (cs, k) := CollectAsWritten(cmds, Some(medianStart)).value;
            |cs| > 0 ==> k == CanonicalStart(cs, medianStart)
  {
    AsWrittenAgreesWithoutElisionFrom(cmds, 0, medianStart, [], None, -1);
  }

  /**
   * A two-subpath stroke whose first subpath ends with a line back to its
   * start before `Z`: `M 0 0 L 10 0 L 0 0 Z M 100 100 L 200 200 Z`, median
   * starting at (100, 100).
   */
  const SkewExample: seq<Command> := [
    Command('M', [0, 0], Continues),
    Command('L', [10, 0], Continues),
    Command('L', [0, 0], Closes),
    Command('M', [100, 100], Continues),
    Command('L', [200, 200], Closes)
  ]

  /** The contour points of that stroke in glyph space. */
  const SkewContour: seq<ContourPoint> :=
    [Straight(Point(0, 900)), Straight(Point(10, 900)), Straight(Point(100, 800)), Straight(Point(200, 700))]

  /** Squared distances of those points to the median start, (100, 800) in glyph space. */
  lemma SkewDistances()
    ensures SquaredDistance(Point(0, 900), Point(100, 800)) == 20000
    ensures SquaredDistance(Point(10, 900), Point(100, 800)) == 18100
    ensures SquaredDistance(Point(100, 800), Point(100, 800)) == 0
    ensures SquaredDistance(Point(200, 700), Point(100, 800)) == 20000
  {
    SquaresOf100And90();
  }

  lemma SquaresOf100And90()
    ensures Square(100) == 10000 && Square(-100) == 10000 && Square(-90) == 8100
  {
    SquareIsProduct(100);
    SquareIsProduct(-100);
    SquareIsProduct(-90);
  }

  /** The command loop as written on that stroke: the contour, and the recorded index 3. */
  lemma SkewCollectedAsWritten()
    ensures CollectAsWritten(SkewExample, Some(Flip(100, 100))) == Ok((SkewContour, 3))
  {
    var ms := Flip(100, 100);
    assert ms == Point(100, 800);
    var c := SkewExample;
    assert SubpathStartAt(c, 2) == Point(0, 900);
    var p0, p1, p2, p3 := SkewContour[0], SkewContour[1], SkewContour[2], SkewContour[3];
    SkewDistances();
    SkewInterpreted();
    assert [] + [p0] == [p0];
    assert [p0] + [p1] == [p0, p1];
    assert [p0, p1] + [p2] == [p0, p1, p2];
    assert [p0, p1, p2] + [p3] == SkewContour;
    AsWrittenAppendStep(c, 0, NO_SUBPATH, ms, [], None, -1, p0, Point(0, 900));
    AsWrittenAppendStep(c, 1, Point(0, 900), ms, [p0], Some(20000), 0, p1, Point(0, 900));
    AsWrittenAppendStep(c, 3, Point(0, 900), ms, [p0, p1], Some(18100), 1, p2, Point(100, 800));
    AsWrittenAppendStep(c, 4, Point(100, 800), ms, [p0, p1, p2], Some(0), 3, p3, Point(100, 800));
  }

  /** What each command of that stroke does, given the subpath start the loop has reached. */
  lemma SkewInterpreted()
    ensures Interpret(SkewExample[0], NO_SUBPATH) == Append(SkewContour[0], Point(0, 900))
    ensures Interpret(SkewExample[1], Point(0, 900)) == Append(SkewContour[1], Point(0, 900))
    ensures Interpret(SkewExample[2], Point(0, 900)) == Elide
    ensures Interpret(SkewExample[3], Point(0, 900)) == Append(SkewContour[2], Point(100, 800))
    ensures Interpret(SkewExample[4], Point(100, 800)) == Append(SkewContour[3], Point(100, 800))
  {
  }

  /** One appended point of the command loop as written. */
  lemma AsWrittenAppendStep(cmds: seq<Command>, i: nat, subpathStart: Point, medianStart: Point,
                            acc: seq<ContourPoint>, minDistance: Option<nat>, startIndex: int, p: ContourPoint, s: Point)
    requires i < |cmds| && Interpret(cmds[i], subpathStart) == Append(p, s)
    ensures var d := SquaredDistance(p.target, medianStart);
            CollectAsWrittenFrom(cmds, i, subpathStart, Some(medianStart), acc, minDistance, startIndex)
            == if minDistance.None? || d < minDistance.value
               then CollectAsWrittenFrom(cmds, i + 1, s, Some(medianStart), acc + [p], Some(d), i)
               else CollectAsWrittenFrom(cmds, i + 1, s, Some(medianStart), acc + [p], minDistance, startIndex)
  {
  }

  /**
   * On that stroke the index as written is 3, the command position of the
   * second move, but contour point 3 is (200, 700): the canonical start is
   * contour point 2, (100, 800), which lies on the median start itself.
   */
  lemma AsWrittenStartSkewedByElidedLine()
    ensures var r := CollectAsWritten(SkewExample, Some(Flip(100, 100)));
            && r.Ok?
            && r.value.0 == [Straight(Point(0, 900)), Straight(Point(10, 900)),
                             Straight(Point(100, 800)), Straight(Point(200, 700))]
            && r.value.1 == 3
            && CanonicalStart(r.value.0, Flip(100, 100)) == 2
            && r.value.0[r.value.1].target != r.value.0[2].target
  {
    SkewCollectedAsWritten();
    assert Flip(100, 100) == Point(100, 800);
    SkewDistances();
    var k := CanonicalStart(SkewContour, Flip(100, 100));
    assert k == 2;
  }

  /**
   * Without its last line, `M 0 0 L 10 0 L 0 0 Z M 100 100`, the same stroke
   * makes the recorded index run past the contour list: three points and
   * index 3, so the later lookup of the start point at that index fails.
   */
  lemma AsWrittenIndexPastContour()
    ensures var r := CollectAsWritten(SkewExample[..4], Some(Flip(100, 100)));
            r.Ok? && |r.value.0| == 3 && r.value.1 == 3
  {
    var ms := Flip(100, 100);
    assert ms == Point(100, 800);
    var c := SkewExample[..4];
    assert forall j :: 0 <= j < 4 ==> c[j] == SkewExample[j];
    assert SubpathStartAt(c, 2) == Point(0, 900);
    var p0, p1, p2 := SkewContour[0], SkewContour[1], SkewContour[2];
    SkewDistances();
    SkewInterpreted();
    assert [] + [p0] == [p0];
    assert [p0] + [p1] == [p0, p1];
    assert [p0, p1] + [p2] == [p0, p1, p2];
    AsWrittenAppendStep(c, 0, NO_SUBPATH, ms, [], None, -1, p0, Point(0, 900));
    AsWrittenAppendStep(c, 1, Point(0, 900), ms, [p0], Some(20000), 0, p1, Point(0, 900));
    AsWrittenAppendStep(c, 3, Point(0, 900), ms, [p0, p1], Some(18100), 1, p2, Point(100, 800));
  }

  // ---------------------------------------------------------------------
  // Re-rooting and walking the contour
  // ---------------------------------------------------------------------

  /**
   * When the first point (a move) coincides with the last target, the move is
   * removed and the start index shifted so that it still designates the same
   * point: index 0 becomes the new last index, any other index moves down one.
   */
  function DropLeadingDuplicate(cs: seq<ContourPoint>, start: nat): (r: (seq<ContourPoint>, nat))
    requires start < |cs|
    ensures r.1 < |r.0| && r.0[r.1].target == cs[start].target
    ensures ClosesOntoStart(cs) ==> |r.0| == |cs| - 1 && forall i :: 0 <= i < |r.0| ==> r.0[i] == cs[i + 1]
    ensures ClosesOntoStart(cs) ==> r.1 == if start == 0 then |r.0| - 1 else start - 1
    ensures !ClosesOntoStart(cs) ==> r == (cs, start)
  {
    if ClosesOntoStart(cs) then
      (seq(|cs| - 1, i requires 0 <= i < |cs| - 1 => cs[i + 1]), if start == 0 then |cs| - 2 else start - 1)
    else
      (cs, start)
  }

  /** The contour has more than one point and ends on the target of its first point (normally a move). */
  predicate ClosesOntoStart(cs: seq<ContourPoint>) {
    |cs| > 1 && cs[0].target == cs[|cs| - 1].target
  }

  /** The contour read circularly from just after `start`, ending with the start itself. */
  function Rotation(cs: seq<ContourPoint>, start: nat): seq<ContourPoint>
    requires start < |cs|
  {
    cs[start + 1..] + cs[..start + 1]
  }

  /**
   * Dropping the leading duplicate re-roots the contour so that it is still
   * read in the same circular order from the same start: the rotation after
   * the new start is the old rotation with the dropped first point, which
   * sits at position |cs| - 1 - start, taken out.
   */
  lemma DropLeadingDuplicateKeepsRotation(cs: seq<ContourPoint>, start: nat)
    requires start < |cs|
    ensures var (contour, s) := DropLeadingDuplicate(cs, start);
            var rot, p := Rotation(cs, start), |cs| - 1 - start;
            && (!ClosesOntoStart(cs) ==> Rotation(contour, s) == rot)
            && (ClosesOntoStart(cs) ==> rot[p] == cs[0] && Rotation(contour, s) == rot[..p] + rot[p + 1..])
  {
    if ClosesOntoStart(cs) {
      var (contour, s) := DropLeadingDuplicate(cs, start);
      assert contour == cs[1..];
      var rot, p := Rotation(cs, start), |cs| - 1 - start;
      if start == 0 {
        assert rot == cs[1..] + [cs[0]];
        assert Rotation(contour, s) == cs[1..];
      } else {
        assert cs[..start + 1] == [cs[0]] + cs[1..start + 1];
        assert rot == cs[start + 1..] + [cs[0]] + cs[1..start + 1];
        assert Rotation(contour, s) == cs[start + 1..] + cs[1..start + 1];
      }
    }
  }

  /** The contour index visited at turn `i` of a walk from `start`. */
  function Turn(n: nat, start: nat, i: nat): (k: nat)
    requires start < n
    ensures k < n
  {
    (start + 1 + i) % n
  }

  lemma TurnValue(n: nat, start: nat, i: nat)
    requires start < n && i < n
    ensures Turn(n, start, i) == if start + 1 + i < n then start + 1 + i else start + 1 + i - n
  {
    var x := start + 1 + i;
    if x < n {
      ModOfDecomposition(x, n, 0, x);
    } else {
      ModOfDecomposition(x, n, 1, x - n);
    }
  }

  /**
   * The walk from turn `i` on. The last turn comes back to the start itself;
   * there a straight point is left out, because the path closes onto it anyway.
   */
  function WalkFrom(cs: seq<ContourPoint>, start: nat, i: nat): (w: seq<ContourPoint>)
    requires start < |cs| && i <= |cs|
    ensures i < |cs| ==> |w| == |cs| - i - (if cs[start].Straight? then 1 else 0)
    ensures i == |cs| ==> w == []
    decreases |cs| - i
  {
    if i == |cs| then []
    else
      var c := cs[Turn(|cs|, start, i)];
      LastTurnIsStart(|cs|, start, i);
      if c.Straight? && i == |cs| - 1 && c.target == cs[start].target then []
      else [c] + WalkFrom(cs, start, i + 1)
  }

  lemma {:induction false} WalkFromVisits(cs: seq<ContourPoint>, start: nat, i: nat, k: nat)
    requires start < |cs| && i <= |cs| && k < |WalkFrom(cs, start, i)|
    ensures WalkFrom(cs, start, i)[k] == cs[Turn(|cs|, start, i + k)]
    decreases k
  {
    if k > 0 {
      WalkFromVisits(cs, start, i + 1, k - 1);
    }
  }

  lemma LastTurnIsStart(n: nat, start: nat, i: nat)
    requires start < n && i < n
    ensures i == n - 1 ==> Turn(n, start, i) == start
  {
    TurnValue(n, start, i);
  }

  /** The points the stroke is encoded through, after its start point. */
  function Walk(cs: seq<ContourPoint>, start: nat): (w: seq<ContourPoint>)
    requires start < |cs|
    ensures |w| == if cs[start].Straight? then |cs| - 1 else |cs|
    ensures forall k :: 0 <= k < |w| ==> w[k] == cs[Turn(|cs|, start, k)]
  {
    var w := WalkFrom(cs, start, 0);
    forall k | 0 <= k < |w| ensures w[k] == cs[Turn(|cs|, start, k)] {
      WalkFromVisits(cs, start, 0, k);
    }
    w
  }

  /**
   * The walk followed by the skipped closing point is exactly the rotation of
   * the contour beginning just after the start, so every index is visited
   * once, in circular order.
   */
  lemma WalkIsRotation(cs: seq<ContourPoint>, start: nat)
    requires start < |cs|
    ensures Walk(cs, start) + (if cs[start].Straight? then [cs[start]] else []) == Rotation(cs, start)
    ensures multiset(Rotation(cs, start)) == multiset(cs)
  {
    var n := |cs|;
    var w := Walk(cs, start);
    var lhs := w + (if cs[start].Straight? then [cs[start]] else []);
    var rot := Rotation(cs, start);
    assert |lhs| == n == |rot|;
    forall k | 0 <= k < n
      ensures lhs[k] == rot[k]
    {
      TurnValue(n, start, k);
      if k < n - 1 - start {
        assert rot[k] == cs[start + 1 + k];
      } else {
        assert rot[k] == cs[k - (n - 1 - start)];
      }
    }
    assert cs == cs[..start + 1] + cs[start + 1..];
  }
}

=== FILE: fullmap.dfy ===
/**
 * `createFullMap`: the characters of the base list first, in their order,
 * then every other character that has stroke data, each with its blob.
 */
module FullMap {
  import opened Results
  import opened Seqs
  import opened Bytes
  import opened Container

  /** The code points of a map, in map order. */
  function Keys(data: seq<Entry>): (ks: seq<int>)
    ensures |ks| == |data|
    ensures forall i :: 0 <= i < |data| ==> ks[i] == data[i].cp
  {
    seq(|data|, i requires 0 <= i < |data| => data[i].cp)
  }

  /** A map has each code point at most once. */
  predicate DistinctKeys(data: seq<Entry>) {
    Distinct(Keys(data))
  }

  /** `Map.get`: the blob of the first entry with the code point, if any. */
  function Lookup(data: seq<Entry>, cp: int): (r: Option<seq<Byte>>)
    ensures r.Some? <==> cp in Keys(data)
    ensures r.Some? ==> Entry(cp, r.value) in data
  {
    if |data| == 0 then None
    else if data[0].cp == cp then Some(data[0].blob)
    else
      assert Keys(data[1..]) == Keys(data)[1..];
      Lookup(data[1..], cp)
  }

  /** In a map, looking up an entry's code point gives that entry's blob. */
  lemma {:induction false} LookupEntry(data: seq<Entry>, i: nat)
    requires DistinctKeys(data) && i < |data|
    ensures Lookup(data, data[i].cp) == Some(data[i].blob)
  {
    if i > 0 {
      assert Keys(data)[0] != Keys(data)[i];
      assert Keys(data[1..]) == Keys(data)[1..];
      LookupEntry(data[1..], i - 1);
    }
  }

  /** The key order: a LinkedHashSet made from the base list, with the stroke-data keys added. */
  function FullOrder(base: seq<int>, data: seq<Entry>): (order: seq<int>)
    ensures Distinct(order)
    ensures forall k :: k in order <==> k in base || k in Keys(data)
  {
    AddAll(AddAll([], base), Keys(data))
  }

  /** Puts the keys of `order` into a new map, each with its stroke data; a key without data is fatal. */
  function PutAll(order: seq<int>, data: seq<Entry>): (r: Result<seq<Entry>>)
    ensures r.Ok? <==> forall k :: k in order ==> k in Keys(data)
    ensures r.Ok? ==> |r.value| == |order|
    ensures r.Ok? ==> forall i :: 0 <= i < |order| ==>
              r.value[i].cp == order[i] && Lookup(data, order[i]) == Some(r.value[i].blob)
    ensures r.Err? ==> r.error.MissingStrokeData? && r.error.cp in order && r.error.cp !in Keys(data)
    ensures r.Err? ==> forall j :: 0 <= j < FirstIndex(order, r.error.cp) ==> order[j] in Keys(data)
  {
    if |order| == 0 then Ok([])
    else
      match Lookup(data, order[0])
      case None => Err(MissingStrokeData(order[0]))
      case Some(blob) =>
        match PutAll(order[1..], data)
        case Err(e) =>
          assert order[1..][FirstIndex(order[1..], e.cp)] == order[1 + FirstIndex(order[1..], e.cp)];
          assert e.cp != order[0] && FirstIndex(order, e.cp) == 1 + FirstIndex(order[1..], e.cp);
          Err(e)
        case Ok(rest) =>
          assert forall k :: k in order ==> k == order[0] || k in order[1..];
          Ok([Entry(order[0], blob)] + rest)
  }

  /**
   * The full map: fails on the first key, in key order, that has no stroke
   * data, which can only be a base character.
   */
  function CreateFullMap(base: seq<int>, data: seq<Entry>): (r: Result<seq<Entry>>)
    ensures r.Ok? <==> forall k :: k in base ==> k in Keys(data)
    ensures r.Ok? ==> Distinct(Keys(r.value))
    ensures r.Err? ==> r.error.MissingStrokeData? && r.error.cp in base && r.error.cp !in Keys(data)
  {
    var order := FullOrder(base, data);
    var r := PutAll(order, data);
    if r.Ok? then
      assert Keys(r.value) == order;
      r
    else r
  }

  /**
   * With a duplicate-free base list and a map, the keys are the base list in
   * its order followed by the other stroke-data keys in map order.
   */
  lemma FullMapKeyOrder(base: seq<int>, data: seq<Entry>)
    requires Distinct(base) && DistinctKeys(data)
    requires CreateFullMap(base, data).Ok?
    ensures Keys(CreateFullMap(base, data).value) == base + Without(Keys(data), base)
  {
    AddAllDistinctIntoEmpty(base);
    AddAllAppendsNew(base, Keys(data));
    assert Keys(CreateFullMap(base, data).value) == FullOrder(base, data);
  }

  /**
   * The full map holds exactly the entries of the stroke-data map, each
   * once: it is the stroke data, reordered.
   */
  lemma FullMapHoldsTheData(base: seq<int>, data: seq<Entry>)
    requires DistinctKeys(data)
    requires CreateFullMap(base, data).Ok?
    ensures forall e :: e in CreateFullMap(base, data).value <==> e in data
    ensures |CreateFullMap(base, data).value| == |data|
  {
    var r := CreateFullMap(base, data).value;
    var order := FullOrder(base, data);
    forall e | e in r ensures e in data {
      var i :| 0 <= i < |r| && r[i] == e;
      assert Lookup(data, order[i]) == Some(e.blob);
    }
    forall e | e in data ensures e in r {
      var i :| 0 <= i < |data| && data[i] == e;
      assert e.cp in Keys(data) by { assert Keys(data)[i] == e.cp; }
      var p := FirstIndex(order, e.cp);
      LookupEntry(data, i);
      assert r[p] == e;
    }
    SameKeysSameLength(order, Keys(data));
  }

  /** Two duplicate-free sequences with the same elements have the same length. */
  lemma SameKeysSameLength(a: seq<int>, b: seq<int>)
    requires Distinct(a) && Distinct(b)
    requires forall k :: k in a <==> k in b
    ensures |a| == |b|
  {
    DistinctCardinality(a);
    DistinctCardinality(b);
    assert (set k | k in a) == (set k | k in b);
  }

  lemma {:induction false} DistinctCardinality(a: seq<int>)
    requires Distinct(a)
    ensures |set k | k in a| == |a|
  {
    if |a| > 0 {
      assert Distinct(a[1..]);
      DistinctCardinality(a[1..]);
      assert a[0] !in a[1..];
      assert (set k | k in a) == (set k | k in a[1..]) + {a[0]};
    }
  }
}

=== FILE: geometry.dfy ===
/** Points of the glyph space, contour points, and the strict running minimum used to pick them. */
module Geometry {

  /** A point of the 1024-unit glyph space, y growing downwards. */
  datatype Point = Point(x: int, y: int)

  /** Height of the source's y-up coordinate space. */
  const SOURCE_HEIGHT := 900

  /** A source coordinate pair moved into glyph space: `900 - y` turns it upside down. */
  function Flip(x: int, ySource: int): (p: Point)
    ensures p.x == x && p.y + ySource == SOURCE_HEIGHT
  {
    Point(x, SOURCE_HEIGHT - ySource)
  }

  /**
   * The point a contour command touches: the target of a move or line, or the
   * target of a quad together with its control point.
   */
  datatype ContourPoint =
    | Straight(target: Point)
    | Curved(control: Point, target: Point)

  function Targets(cs: seq<ContourPoint>): (ps: seq<Point>)
    ensures |ps| == |cs|
    ensures forall i :: 0 <= i < |cs| ==> ps[i] == cs[i].target
  {
    seq(|cs|, i requires 0 <= i < |cs| => cs[i].target)
  }

  /**
   * Squared Euclidean distance. `Math.hypot` is its square root, which is
   * monotone, so for coordinates below 2^20 in magnitude, where the rounding
   * of a `double` cannot merge distinct distances, a strict `<` between
   * squared distances orders points the same.
   */
  function SquaredDistance(p: Point, q: Point): nat {
    Square(p.x - q.x) + Square(p.y - q.y)
  }

  /**
   * The square of `n`, by halving: (2m)² = 4m² and (2m + 1)² = 4m² + 4m + 1.
   * SquareIsProduct shows that it is `n * n`; the halving form keeps distance
   * comparisons in linear arithmetic, which the verifier decides far faster
   * than products of two unknowns.
   */
  function Square(n: int): nat
    decreases if n < 0 then 1 - 2 * n else 2 * n
  {
    if n < 0 then Square(-n)
    else if n == 0 then 0
    else if n % 2 == 0 then 4 * Square(n / 2)
    else 4 * Square(n / 2) + 4 * (n / 2) + 1
  }

  /** The halving recursion is the product of a number with itself. */
  lemma {:induction false} SquareIsProduct(n: int)
    ensures Square(n) == n * n
    decreases if n < 0 then 1 - 2 * n else 2 * n
  {
    if n < 0 {
      SquareIsProduct(-n);
      assert (-n) * (-n) == n * n;
    } else if n > 0 {
      var m := n / 2;
      SquareIsProduct(m);
      if n % 2 == 0 {
        assert n == 2 * m;
        EvenSquare(m);
      } else {
        assert n == 2 * m + 1;
        OddSquare(m);
      }
    }
  }

  lemma EvenSquare(m: int)
    ensures (2 * m) * (2 * m) == 4 * (m * m)
  {
  }

  lemma OddSquare(m: int)
    ensures (2 * m + 1) * (2 * m + 1) == 4 * (m * m) + 4 * m + 1
  {
  }

  /** `k` is nearest to `to` among `pts`, and strictly nearer than every point before it. */
  ghost predicate IsFirstNearest(pts: seq<Point>, to: Point, k: nat) {
    && k < |pts|
    && (forall j :: 0 <= j < |pts| ==> SquaredDistance(pts[k], to) <= SquaredDistance(pts[j], to))
    && (forall j :: 0 <= j < k ==> SquaredDistance(pts[k], to) < SquaredDistance(pts[j], to))
  }

  /**
   * The running minimum of the source: scan left to right and replace the
   * best index only on a strictly smaller distance, so ties keep the first.
   */
  function FirstNearest(pts: seq<Point>, to: Point): (k: nat)
    requires |pts| > 0
    ensures IsFirstNearest(pts, to, k)
  {
    NearestScan(pts, to, 1, 0)
  }

  function NearestScan(pts: seq<Point>, to: Point, i: nat, best: nat): (k: nat)
    requires best < i <= |pts|
    requires forall j :: 0 <= j < i ==> SquaredDistance(pts[best], to) <= SquaredDistance(pts[j], to)
    requires forall j :: 0 <= j < best ==> SquaredDistance(pts[best], to) < SquaredDistance(pts[j], to)
    ensures IsFirstNearest(pts, to, k)
    decreases |pts| - i
  {
    if i == |pts| then best
    else if SquaredDistance(pts[i], to) < SquaredDistance(pts[best], to) then NearestScan(pts, to, i + 1, i)
    else NearestScan(pts, to, i + 1, best)
  }

  /** The first nearest point is unique: whatever satisfies the property is the scan's answer. */
  lemma FirstNearestUnique(pts: seq<Point>, to: Point, k: nat, k': nat)
    requires IsFirstNearest(pts, to, k) && IsFirstNearest(pts, to, k')
    ensures k == k'
  {
    NearestAgainst(pts, to, k, k');
    NearestAgainst(pts, to, k', k);
  }

  lemma NearestAgainst(pts: seq<Point>, to: Point, k: nat, j: nat)
    requires IsFirstNearest(pts, to, k) && j < |pts|
    ensures SquaredDistance(pts[k], to) <= SquaredDistance(pts[j], to)
    ensures j < k ==> SquaredDistance(pts[k], to) < SquaredDistance(pts[j], to)
  {
  }

  /**
   * Extending the scanned points by one more keeps the earlier answer unless
   * the new point is strictly nearer: the running minimum evaluated one step further.
   */
  lemma FirstNearestSnoc(pts: seq<Point>, p: Point, to: Point)
    requires |pts| > 0
    ensures var k := FirstNearest(pts, to);
            FirstNearest(pts + [p], to)
            == if SquaredDistance(p, to) < SquaredDistance(pts[k], to) then |pts| else k
  {
    var k := FirstNearest(pts, to);
    var ext := pts + [p];
    var expected := if SquaredDistance(p, to) < SquaredDistance(pts[k], to) then |pts| else k;
    assert IsFirstNearest(ext, to, expected) by {
      forall j | 0 <= j < |ext|
        ensures SquaredDistance(ext[expected], to) <= SquaredDistance(ext[j], to)
      {
        if j < |pts| { assert ext[j] == pts[j]; }
      }
      forall j | 0 <= j < expected
        ensures SquaredDistance(ext[expected], to) < SquaredDistance(ext[j], to)
      {
        assert ext[j] == pts[j];
      }
    }
    FirstNearestUnique(ext, to, FirstNearest(ext, to), expected);
  }
}

=== FILE: quantize.dfy ===
/** The fixed-point quantizer `transformArg` and the two reserved opcodes. */
module Quantize {
  import opened Bytes

  /** Ends a stroke (and is omitted after the last stroke of a character). */
  const END_STROKE_OP: Byte := 0
  /** Introduces a straight line; any other byte at that position starts a quad. */
  const LINE_TO_OP: Byte := 1

  /** The smallest value a quantized byte may take: above both opcodes when it could be read as one. */
  function LowerBound(avoidOpClashes: bool): Byte {
    if avoidOpClashes then LINE_TO_OP + 1 else END_STROKE_OP
  }

  /**
   * `transformArg`: a coordinate of the 0..1023 space divided by 4 with
   * Java's truncating division, clamped into [LowerBound, 255].
   */
  function TransformArg(arg: int, avoidOpClashes: bool): (r: Byte)
    ensures LowerBound(avoidOpClashes) <= r
    ensures avoidOpClashes ==> r != END_STROKE_OP && r != LINE_TO_OP
    // inside the representable range the byte is the floor of a quarter of the argument
    ensures 4 * LowerBound(avoidOpClashes) <= arg < 1024 ==> 4 * r <= arg < 4 * r + 4
    // below and above it the byte saturates
    ensures arg < 4 * LowerBound(avoidOpClashes) + 4 ==> r == LowerBound(avoidOpClashes)
    ensures arg >= 1020 ==> r == 255
  {
    var intResult := JavaDiv(arg, 4);
    var lowerBound := LowerBound(avoidOpClashes);
    if intResult < lowerBound then lowerBound
    else if intResult > 255 then 255
    else intResult
  }

  /** A larger coordinate never quantizes to a smaller byte. */
  lemma TransformArgMonotone(a: int, b: int, avoidOpClashes: bool)
    requires a <= b
    ensures TransformArg(a, avoidOpClashes) <= TransformArg(b, avoidOpClashes)
  {
    var qa := JavaDiv(a, 4);
    var qb := JavaDiv(b, 4);
    if qa > qb {
      assert a - 4 < 4 * qa - 4 && 4 * qb <= 4 * qa - 4;
      assert b - 4 * qb < 4 || b < 0;
    }
  }

  /**
   * Because the clamp swallows every negative quotient, truncating and
   * flooring division quantize every argument to the same byte.
   */
  lemma TransformArgIgnoresRounding(arg: int, avoidOpClashes: bool)
    ensures TransformArg(arg, avoidOpClashes) == Clamp(arg / 4, LowerBound(avoidOpClashes))
  {
    if arg < 0 {
      assert JavaDiv(arg, 4) <= 0;
      assert arg / 4 < 0;
    }
  }

  function Clamp(v: int, lowerBound: Byte): Byte {
    if v < lowerBound then lowerBound else if v > 255 then 255 else v
  }
}

=== FILE: results.dfy ===
/** Failure-compatible wrappers and the ways one build of the stroke data can fail. */
module Results {

  datatype Option<+T> = None | Some(value: T)

  /** Every fatal condition the builder raises, named after the exception it throws. */
  datatype BuildError =
    | UnknownCurveCode(code: char)  // "Unknown curve code" IllegalStateException
    | MissingArgument               // a coordinate group that did not match: NumberFormatException
    | LookaheadPastEnd              // a line back to the subpath start at the end of the stroke text: charAt out of range
    | NoMedianPoint                 // a median with no point: NullPointerException on its start point
    | EmptyContour                  // a stroke without contour points: contours.get(-1)
    | NoEndPoint                    // nothing walked, so no end point: "endPoint null"
    | MissingMedian(stroke: nat)    // more strokes than medians: medianStartPoints.get(index)
    | NoStrokes                     // no stroke at all: Arrays.copyOf with length -1
    | MissingStrokeData(cp: int)    // a base character without stroke data

  datatype Result<+T> = Ok(value: T) | Err(error: BuildError) {

    predicate IsFailure() {
      Err?
    }

    function PropagateFailure<U>(): Result<U>
      requires Err?
    {
      Err(error)
    }

    function Extract(): T
      requires Ok?
    {
      value
    }
  }
}

=== FILE: seqs.dfy ===
/** Sequence helpers shared by the container, the key ordering and the character list. */
module Seqs {

  predicate Distinct<T(==)>(s: seq<T>) {
    forall i, j :: 0 <= i < j < |s| ==> s[i] != s[j]
  }

  function Flatten<T>(ss: seq<seq<T>>): seq<T> {
    if |ss| == 0 then [] else ss[0] + Flatten(ss[1..])
  }

  lemma {:induction false} FlattenAppend<T>(a: seq<seq<T>>, b: seq<seq<T>>)
    ensures Flatten(a + b) == Flatten(a) + Flatten(b)
  {
    if |a| == 0 {
      assert a + b == b;
    } else {
      assert (a + b)[1..] == a[1..] + b;
      FlattenAppend(a[1..], b);
    }
  }

  /** The total length of a sequence of sequences. */
  function SumLengths<T>(ss: seq<seq<T>>): nat {
    if |ss| == 0 then 0 else |ss[0]| + SumLengths(ss[1..])
  }

  lemma {:induction false} FlattenLength<T>(ss: seq<seq<T>>)
    ensures |Flatten(ss)| == SumLengths(ss)
  {
    if |ss| > 0 {
      FlattenLength(ss[1..]);
    }
  }

  /** Flattening one more chunk of a prefix appends that chunk. */
  lemma FlattenPrefix<T>(ss: seq<seq<T>>, i: nat)
    requires i < |ss|
    ensures Flatten(ss[..i + 1]) == Flatten(ss[..i]) + ss[i]
  {
    assert ss[..i + 1] == ss[..i] + [ss[i]];
    FlattenAppend(ss[..i], [ss[i]]);
    assert Flatten([ss[i]]) == ss[i] + Flatten([ss[i]][1..]);
  }

  /** In a flattening of equal-length chunks, chunk `j` sits at `j` times the chunk length. */
  lemma FlattenChunkAt<T>(ss: seq<seq<T>>, width: nat, j: nat)
    requires forall i :: 0 <= i < |ss| ==> |ss[i]| == width
    requires j < |ss|
    ensures var at := width * j; at + width <= |Flatten(ss)| && Flatten(ss)[at..at + width] == ss[j]
  {
    FlattenChunkLength(ss, width);
    FlattenSplit(ss, j);
    FlattenChunkLength(ss[..j], width);
    var before, after := Flatten(ss[..j]), Flatten(ss[j + 1..]);
    var at := |before|;
    assert at == width * j;
    assert (before + ss[j] + after)[at..at + width] == ss[j];
  }

  /** A flattening is the part before chunk `j`, chunk `j`, and the part after. */
  lemma FlattenSplit<T>(ss: seq<seq<T>>, j: nat)
    requires j < |ss|
    ensures Flatten(ss) == Flatten(ss[..j]) + ss[j] + Flatten(ss[j + 1..])
  {
    assert ss == ss[..j] + ss[j..];
    FlattenAppend(ss[..j], ss[j..]);
    assert ss[j..][1..] == ss[j + 1..];
  }

  lemma {:induction false} FlattenChunkLength<T>(ss: seq<seq<T>>, width: nat)
    requires forall i :: 0 <= i < |ss| ==> |ss[i]| == width
    ensures |Flatten(ss)| == width * |ss|
  {
    if |ss| > 0 {
      FlattenChunkLength(ss[1..], width);
      assert width * |ss| == width + width * (|ss| - 1);
    }
  }

  /** Index of the first occurrence of `x` in `s`. */
  function FirstIndex<T(==)>(s: seq<T>, x: T): (k: nat)
    requires x in s
    ensures k < |s| && s[k] == x
    ensures forall j :: 0 <= j < k ==> s[j] != x
  {
    if s[0] == x then 0 else 1 + FirstIndex(s[1..], x)
  }

  /**
   * Adds each element of `xs` to `acc` unless it is already there: the
   * insertion-ordered set union of Java's LinkedHashSet.add / addAll.
   */
  function AddAll<T(==, !new)>(acc: seq<T>, xs: seq<T>): (r: seq<T>)
    ensures |acc| <= |r| && r[..|acc|] == acc
    ensures Distinct(acc) ==> Distinct(r)
    ensures forall x :: x in r <==> x in acc || x in xs
    decreases |xs|
  {
    if |xs| == 0 then acc
    else AddAll(if xs[0] in acc then acc else acc + [xs[0]], xs[1..])
  }

  /** Adding `x` first, then the rest. */
  lemma AddAllCons<T(!new)>(acc: seq<T>, x: T, rest: seq<T>)
    ensures AddAll(acc, [x] + rest) == AddAll(if x in acc then acc else acc + [x], rest)
  {
    assert ([x] + rest)[1..] == rest;
  }

  /** Adding two sequences one after the other is adding their concatenation. */
  lemma {:induction false} AddAllConcat<T(!new)>(acc: seq<T>, a: seq<T>, b: seq<T>)
    ensures AddAll(AddAll(acc, a), b) == AddAll(acc, a + b)
    decreases |a|
  {
    if |a| > 0 {
      assert (a + b)[1..] == a[1..] + b;
      assert (a + b)[0] == a[0];
      AddAllConcat(if a[0] in acc then acc else acc + [a[0]], a[1..], b);
    } else {
      assert a + b == b;
    }
  }

  /** The elements of `xs` that are not in `seen`, in their order. */
  function Without<T(==)>(xs: seq<T>, seen: seq<T>): seq<T> {
    if |xs| == 0 then []
    else if xs[0] in seen then Without(xs[1..], seen)
    else [xs[0]] + Without(xs[1..], seen)
  }

  lemma {:induction false} WithoutIgnoresAbsent<T>(xs: seq<T>, seen: seq<T>, y: T)
    requires y !in xs
    ensures Without(xs, seen + [y]) == Without(xs, seen)
  {
    if |xs| > 0 {
      assert xs[0] != y;
      assert xs[0] in seen + [y] <==> xs[0] in seen;
      WithoutIgnoresAbsent(xs[1..], seen, y);
    }
  }

  /** Adding a duplicate-free sequence appends exactly its new elements, in order. */
  lemma {:induction false} AddAllAppendsNew<T(!new)>(acc: seq<T>, xs: seq<T>)
    requires Distinct(xs)
    ensures AddAll(acc, xs) == acc + Without(xs, acc)
    decreases |xs|
  {
    if |xs| > 0 {
      var x := xs[0];
      assert Distinct(xs[1..]);
      assert x !in xs[1..] by {
        forall j | 0 <= j < |xs[1..]| ensures xs[1..][j] != x {
          assert xs[1..][j] == xs[j + 1];
        }
      }
      if x in acc {
        calc {
          AddAll(acc, xs);
          AddAll(acc, xs[1..]);
          { AddAllAppendsNew(acc, xs[1..]); }
          acc + Without(xs[1..], acc);
        }
      } else {
        calc {
          AddAll(acc, xs);
          AddAll(acc + [x], xs[1..]);
          { AddAllAppendsNew(acc + [x], xs[1..]); }
          acc + [x] + Without(xs[1..], acc + [x]);
          { WithoutIgnoresAbsent(xs[1..], acc, x); }
          acc + [x] + Without(xs[1..], acc);
          acc + ([x] + Without(xs[1..], acc));
        }
      }
    }
  }

  /** Into an empty accumulator, a duplicate-free sequence is added unchanged. */
  lemma AddAllDistinctIntoEmpty<T(!new)>(xs: seq<T>)
    requires Distinct(xs)
    ensures AddAll([], xs) == xs
  {
    AddAllAppendsNew([], xs);
    WithoutNothing(xs);
  }

  lemma {:induction false} WithoutNothing<T>(xs: seq<T>)
    ensures Without(xs, []) == xs
  {
    if |xs| > 0 {
      WithoutNothing(xs[1..]);
      assert xs == [xs[0]] + xs[1..];
    }
  }

  /**
   * The elements AddAll appends keep the order of their first occurrence in
   * `xs`: first-seen order.
   */
  lemma {:induction false} AddAllFirstSeenOrder<T(!new)>(acc: seq<T>, xs: seq<T>, i: nat, j: nat)
    requires Distinct(acc)
    requires |acc| <= i < j < |AddAll(acc, xs)|
    ensures AddAll(acc, xs)[i] in xs && AddAll(acc, xs)[j] in xs
    ensures FirstIndex(xs, AddAll(acc, xs)[i]) < FirstIndex(xs, AddAll(acc, xs)[j])
    decreases |xs|
  {
    var r := AddAll(acc, xs);
    var x := xs[0];
    var acc' := if x in acc then acc else acc + [x];
    assert r == AddAll(acc', xs[1..]);
    if x in acc {
      AddAllFirstSeenOrder(acc', xs[1..], i, j);
      FirstIndexTail(xs, r[i]);
      FirstIndexTail(xs, r[j]);
    } else if i == |acc| {
      assert r[i] == acc'[i] == x;
      assert r[j] in xs by {
        assert r[j] in r;
      }
      assert r[j] != x by {
        assert r[i] == x;
      }
      FirstIndexTail(xs, r[j]);
    } else {
      assert r[|acc|] == acc'[|acc|] == x;
      assert Distinct(r);
      AddAllFirstSeenOrder(acc', xs[1..], i, j);
      FirstIndexTail(xs, r[i]);
      FirstIndexTail(xs, r[j]);
    }
  }

  lemma FirstIndexTail<T>(xs: seq<T>, y: T)
    requires |xs| > 0 && y in xs && y != xs[0]
    ensures y in xs[1..] && FirstIndex(xs, y) == 1 + FirstIndex(xs[1..], y)
  {
  }
}

=== FILE: strokecodec.dfy ===
/**
 * The byte layout of an encoded stroke and of a character blob, with the
 * decoder a consumer of the container needs and the proof that it recovers
 * what was encoded.
 *
 * Per stroke: [half arc length][start x][start y], then `[1][x][y]` for a
 * line or `[cx][cy][tx][ty]` for a quad, then the end-of-stroke byte 0.
 */
module StrokeCodec {
  import opened Results
  import opened Bytes
  import opened Quantize
  import opened Geometry

  /** A quantized line or quad of a stroke. */
  datatype Segment =
    | LineSeg(x: Byte, y: Byte)
    | QuadSeg(cx: Byte, cy: Byte, tx: Byte, ty: Byte)

  /** A quad's first byte, its control x, cannot be read as an opcode. */
  predicate Unambiguous(s: Segment) {
    s.QuadSeg? ==> s.cx != END_STROKE_OP && s.cx != LINE_TO_OP
  }

  /** A stroke as its bytes carry it. */
  datatype EncodedStroke = EncodedStroke(halfLength: Byte, startX: Byte, startY: Byte, segments: seq<Segment>)

  predicate UnambiguousStroke(e: EncodedStroke) {
    forall i :: 0 <= i < |e.segments| ==> Unambiguous(e.segments[i])
  }

  /**
   * `addLineToBytes` for a point after the first, and `addQuadToBytes`: every
   * coordinate quantized, the control x with opcode clashes avoided.
   */
  function QuantizeContour(c: ContourPoint): (s: Segment)
    ensures Unambiguous(s)
    ensures s.LineSeg? <==> c.Straight?
  {
    match c
    case Straight(t) =>
      LineSeg(TransformArg(t.x, false), TransformArg(t.y, false))
    case Curved(k, t) =>
      QuadSeg(TransformArg(k.x, true), TransformArg(k.y, false), TransformArg(t.x, false), TransformArg(t.y, false))
  }

  function QuantizeAll(cs: seq<ContourPoint>): (ss: seq<Segment>)
    ensures |ss| == |cs|
    ensures forall i :: 0 <= i < |cs| ==> ss[i] == QuantizeContour(cs[i])
  {
    seq(|cs|, i requires 0 <= i < |cs| => QuantizeContour(cs[i]))
  }

  function SegmentBytes(s: Segment): seq<Byte> {
    match s
    case LineSeg(x, y) => [LINE_TO_OP, x, y]
    case QuadSeg(cx, cy, tx, ty) => [cx, cy, tx, ty]
  }

  function SegmentsBytes(ss: seq<Segment>): seq<Byte> {
    if |ss| == 0 then [] else SegmentBytes(ss[0]) + SegmentsBytes(ss[1..])
  }

  /** A stroke without its terminator: the arc-length byte, the start point, the segments. */
  function StrokeBody(e: EncodedStroke): seq<Byte> {
    [e.halfLength, e.startX, e.startY] + SegmentsBytes(e.segments)
  }

  function StrokeBytes(e: EncodedStroke): seq<Byte> {
    StrokeBody(e) + [END_STROKE_OP]
  }

  function LineCount(ss: seq<Segment>): nat {
    if |ss| == 0 then 0 else (if ss[0].LineSeg? then 1 else 0) + LineCount(ss[1..])
  }

  function QuadCount(ss: seq<Segment>): nat {
    if |ss| == 0 then 0 else (if ss[0].QuadSeg? then 1 else 0) + QuadCount(ss[1..])
  }

  lemma {:induction false} SegmentsBytesLength(ss: seq<Segment>)
    ensures |SegmentsBytes(ss)| == 3 * LineCount(ss) + 4 * QuadCount(ss)
  {
    if |ss| > 0 {
      SegmentsBytesLength(ss[1..]);
    }
  }

  /** A stroke takes one length byte, two start bytes, three per line, four per quad and a terminator. */
  lemma StrokeBytesLength(e: EncodedStroke)
    ensures |StrokeBytes(e)| == 1 + 2 + 3 * LineCount(e.segments) + 4 * QuadCount(e.segments) + 1
  {
    SegmentsBytesLength(e.segments);
  }

  // ---------------------------------------------------------------------
  // Character blobs
  // ---------------------------------------------------------------------

  /** Every stroke with its terminator, as the source writes them one after the other. */
  function AllStrokeBytes(es: seq<EncodedStroke>): seq<Byte> {
    if |es| == 0 then [] else StrokeBytes(es[0]) + AllStrokeBytes(es[1..])
  }

  /** A character blob: strokes separated by terminators, the last one unterminated. */
  function BlobBytes(es: seq<EncodedStroke>): seq<Byte>
    requires |es| > 0
  {
    if |es| == 1 then StrokeBody(es[0])
    else StrokeBody(es[0]) + [END_STROKE_OP] + BlobBytes(es[1..])
  }

  /** The blob is the strokes written in full with the one trailing terminator dropped. */
  lemma {:induction false} BlobDropsFinalTerminator(es: seq<EncodedStroke>)
    requires |es| > 0
    ensures AllStrokeBytes(es) == BlobBytes(es) + [END_STROKE_OP]
  {
    if |es| == 1 {
      assert es[1..] == [];
    } else {
      BlobDropsFinalTerminator(es[1..]);
    }
  }

  // ---------------------------------------------------------------------
  // Decoding
  // ---------------------------------------------------------------------

  /**
   * Reads segments up to a terminator (flag true) or the end of the input
   * (flag false), returning what follows. A 1 starts a line; any other byte
   * but 0 starts a quad.
   */
  function ParseSegments(b: seq<Byte>): (r: Option<(seq<Segment>, seq<Byte>, bool)>)
    ensures r.Some? ==> |r.value.1| <= |b| && (r.value.2 ==> |r.value.1| < |b|)
    decreases |b|
  {
    if |b| == 0 then Some(([], [], false))
    else if b[0] == END_STROKE_OP then Some(([], b[1..], true))
    else if b[0] == LINE_TO_OP then
      if |b| < 3 then None
      else
        match ParseSegments(b[3..])
        case None => None
        case Some((ss, rest, terminated)) => Some(([LineSeg(b[1], b[2])] + ss, rest, terminated))
    else if |b| < 4 then None
    else
      match ParseSegments(b[4..])
      case None => None
      case Some((ss, rest, terminated)) => Some(([QuadSeg(b[0], b[1], b[2], b[3])] + ss, rest, terminated))
  }

  /** Reads the strokes of a character blob. */
  function ParseStrokes(b: seq<Byte>): Option<seq<EncodedStroke>>
    decreases |b|
  {
    if |b| < 3 then None
    else
      match ParseSegments(b[3..])
      case None => None
      case Some((ss, rest, terminated)) =>
        var e := EncodedStroke(b[0], b[1], b[2], ss);
        if !terminated then Some([e])
        else
          match ParseStrokes(rest)
          case None => None
          case Some(es) => Some([e] + es)
  }

  predicate AllUnambiguous(ss: seq<Segment>) {
    forall i :: 0 <= i < |ss| ==> Unambiguous(ss[i])
  }

  /** One unambiguous segment in front of readable bytes is read first. */
  lemma ParseSegmentsCons(s: Segment, after: seq<Byte>)
    requires Unambiguous(s)
    requires ParseSegments(after).Some?
    ensures var (ss, rest, terminated) := ParseSegments(after).value;
            ParseSegments(SegmentBytes(s) + after) == Some(([s] + ss, rest, terminated))
  {
    var b := SegmentBytes(s) + after;
    match s
    case LineSeg(x, y) =>
      assert b[0] == LINE_TO_OP && b[3..] == after;
    case QuadSeg(cx, cy, tx, ty) =>
      assert b[0] == cx && b[4..] == after;
  }

  lemma AllUnambiguousTail(ss: seq<Segment>)
    requires |ss| > 0 && AllUnambiguous(ss)
    ensures Unambiguous(ss[0]) && AllUnambiguous(ss[1..])
  {
    forall i | 0 <= i < |ss[1..]| ensures Unambiguous(ss[1..][i]) {
      assert ss[1..][i] == ss[i + 1];
    }
  }

  /** The first segment is read in front of the bytes of the others. */
  lemma ParseSegmentsStep(ss: seq<Segment>, after: seq<Byte>, rest: seq<Byte>, terminated: bool)
    requires |ss| > 0 && Unambiguous(ss[0])
    requires ParseSegments(SegmentsBytes(ss[1..]) + after) == Some((ss[1..], rest, terminated))
    ensures ParseSegments(SegmentsBytes(ss) + after) == Some((ss, rest, terminated))
  {
    assert SegmentsBytes(ss) + after == SegmentBytes(ss[0]) + (SegmentsBytes(ss[1..]) + after);
    ParseSegmentsCons(ss[0], SegmentsBytes(ss[1..]) + after);
    assert [ss[0]] + ss[1..] == ss;
  }

  /** Unambiguous segments in front of bytes that read as no segments are read back. */
  lemma {:induction false} ParseSegmentsPrefix(ss: seq<Segment>, after: seq<Byte>, rest: seq<Byte>, terminated: bool)
    requires AllUnambiguous(ss)
    requires ParseSegments(after) == Some(([], rest, terminated))
    ensures ParseSegments(SegmentsBytes(ss) + after) == Some((ss, rest, terminated))
  {
    if |ss| == 0 {
      assert SegmentsBytes(ss) + after == after;
    } else {
      AllUnambiguousTail(ss);
      ParseSegmentsPrefix(ss[1..], after, rest, terminated);
      ParseSegmentsStep(ss, after, rest, terminated);
    }
  }

  /** Segments and a terminator are read back, with what follows the terminator left over. */
  lemma ParseSegmentsRoundTrip(ss: seq<Segment>, tail: seq<Byte>)
    requires AllUnambiguous(ss)
    ensures ParseSegments(SegmentsBytes(ss) + [END_STROKE_OP] + tail) == Some((ss, tail, true))
  {
    var after := [END_STROKE_OP] + tail;
    assert after[1..] == tail;
    ParseSegmentsPrefix(ss, after, tail, true);
    assert SegmentsBytes(ss) + [END_STROKE_OP] + tail == SegmentsBytes(ss) + after;
  }

  /** The last stroke of a blob, without a terminator, is read back alone. */
  lemma ParseLastStroke(e: EncodedStroke)
    requires UnambiguousStroke(e)
    ensures ParseStrokes(StrokeBody(e)) == Some([e])
  {
    var b := StrokeBody(e);
    assert AllUnambiguous(e.segments);
    ParseSegmentsPrefix(e.segments, [], [], false);
    assert b[3..] == SegmentsBytes(e.segments) + [];
  }

  /** A terminated stroke in front of readable strokes is read first. */
  lemma ParseStrokeCons(e: EncodedStroke, rest: seq<Byte>, es: seq<EncodedStroke>)
    requires UnambiguousStroke(e)
    requires ParseStrokes(rest) == Some(es)
    ensures ParseStrokes(StrokeBody(e) + [END_STROKE_OP] + rest) == Some([e] + es)
  {
    var b := StrokeBody(e) + [END_STROKE_OP] + rest;
    assert AllUnambiguous(e.segments);
    ParseSegmentsRoundTrip(e.segments, rest);
    assert b[3..] == SegmentsBytes(e.segments) + [END_STROKE_OP] + rest;
  }

  /** A blob of unambiguous strokes decodes to exactly those strokes. */
  lemma {:induction false} ParseBlobRoundTrip(es: seq<EncodedStroke>)
    requires |es| > 0
    requires forall i :: 0 <= i < |es| ==> UnambiguousStroke(es[i])
    ensures ParseStrokes(BlobBytes(es)) == Some(es)
  {
    assert UnambiguousStroke(es[0]);
    if |es| == 1 {
      ParseLastStroke(es[0]);
      assert [es[0]] == es;
    } else {
      assert forall i :: 0 <= i < |es[1..]| ==> UnambiguousStroke(es[1..][i]) by {
        forall i | 0 <= i < |es[1..]| ensures UnambiguousStroke(es[1..][i]) {
          assert es[1..][i] == es[i + 1];
        }
      }
      ParseBlobRoundTrip(es[1..]);
      ParseStrokeCons(es[0], BlobBytes(es[1..]), es[1..]);
      assert [es[0]] + es[1..] == es;
    }
  }
}

=== FILE: strokeencoding.dfy ===
/**
 * One stroke of `createBlob`: its contour is collected, started at the point
 * nearest the median start, walked once round and quantized.
 */
module StrokeEncoding {
  import opened Results
  import opened Quantize
  import opened Geometry
  import opened Contour
  import opened StrokeCodec

  /**
   * The length of the path drawn from a start point through contour points
   * (lines, and quads through their control points), truncated to an int.
   * Android's path measurement is not part of this model, so it is a parameter.
   */
  type Measure = (Point, seq<ContourPoint>) -> nat

  /** A median point of the source, moved into glyph space. */
  function FlipPoint(p: Point): Point {
    Flip(p.x, p.y)
  }

  /** The first median point, when the median has one. */
  function MedianStart(median: seq<Point>): Option<Point> {
    if |median| == 0 then None else Some(FlipPoint(median[0]))
  }

  /**
   * One stroke: collect the contour, start at the point nearest the median
   * start, drop a leading move the contour closes onto, walk the rest, and
   * record the path length up to the first walked point nearest the median end.
   */
  function EncodeStroke(cmds: seq<Command>, median: seq<Point>, measure: Measure): (r: Result<EncodedStroke>)
    ensures r.Ok? ==> UnambiguousStroke(r.value)
    ensures r.Ok? ==> |median| > 0 && |cmds| > 0
  {
    var cs :- Collect(cmds, MedianStart(median));
    if |cs| == 0 then Err(EmptyContour)
    else EncodeContour(cs, FlipPoint(median[0]), FlipPoint(median[|median| - 1]), measure)
  }

  /** A collected, non-empty contour: canonical start, leading move dropped, walked. */
  function EncodeContour(cs: seq<ContourPoint>, medianStart: Point, medianEnd: Point, measure: Measure)
    : (r: Result<EncodedStroke>)
    requires |cs| > 0
    ensures r.Ok? ==> UnambiguousStroke(r.value)
  {
    var (contour, start) := DropLeadingDuplicate(cs, CanonicalStart(cs, medianStart));
    EncodeWalk(contour[start].target, Walk(contour, start), medianEnd, measure)
  }

  /**
   * The walked points from a start point: the quantized start, the quantized
   * segments, and the halved length up to the first point nearest the median end.
   */
  function EncodeWalk(startPoint: Point, walked: seq<ContourPoint>, medianEnd: Point, measure: Measure)
    : (r: Result<EncodedStroke>)
    ensures r.Ok? <==> |walked| > 0
    ensures r.Err? ==> r.error == NoEndPoint
    ensures r.Ok? ==> UnambiguousStroke(r.value) && |r.value.segments| == |walked|
  {
    if |walked| == 0 then Err(NoEndPoint)
    else
      var end := FirstNearest(Targets(walked), medianEnd);
      var length := measure(startPoint, walked[..end + 1]);
      Ok(EncodedStroke(
        TransformArg(length / 2, false),
        TransformArg(startPoint.x, false),
        TransformArg(startPoint.y, false),
        QuantizeAll(walked)))
  }

  // ---------------------------------------------------------------------
  // The stroke, layer by layer
  // ---------------------------------------------------------------------

  /** A stroke that encodes has a non-empty collected contour and is that contour's encoding. */
  lemma StrokeIsContour(cmds: seq<Command>, median: seq<Point>, measure: Measure)
    requires EncodeStroke(cmds, median, measure).Ok?
    ensures Collect(cmds, MedianStart(median)).Ok? && |median| > 0
    ensures var cs := Collect(cmds, MedianStart(median)).value;
            && |cs| > 0
            && EncodeStroke(cmds, median, measure)
               == EncodeContour(cs, FlipPoint(median[0]), FlipPoint(median[|median| - 1]), measure)
  {
  }

  /**
   * A contour that leaves nothing to walk: a single straight point, or a point
   * and a straight line back onto it, where the point is dropped as a leading
   * duplicate and the line is then the start itself.
   */
  predicate NothingToWalk(cs: seq<ContourPoint>) {
    || (|cs| == 1 && cs[0].Straight?)
    || (|cs| == 2 && cs[0].target == cs[1].target && cs[1].Straight?)
  }

  /**
   * When a stroke fails, and with which error: a failing command loop passes
   * its error on, an empty contour is refused, and a non-empty one fails,
   * with no end point, exactly when nothing is left to walk.
   */
  lemma StrokeOutcome(cmds: seq<Command>, median: seq<Point>, measure: Measure)
    ensures var r := EncodeStroke(cmds, median, measure);
            var c := Collect(cmds, MedianStart(median));
            && (c.Err? ==> r == Err(c.error))
            && (c.Ok? && |c.value| == 0 ==> r == Err(EmptyContour))
            && (c.Ok? && |c.value| > 0 ==> (r.Err? <==> NothingToWalk(c.value)) && (r.Err? ==> r.error == NoEndPoint))
  {
    var c := Collect(cmds, MedianStart(median));
    if c.Ok? && |c.value| > 0 {
      ContourOutcome(c.value, FlipPoint(median[0]), FlipPoint(median[|median| - 1]), measure);
    }
  }

  /** The stroke `M 0 0 Z` with a one-point median at (0, 0) collects one point and has nothing to walk. */
  lemma SinglePointStrokeHasNoEndPoint(measure: Measure)
    ensures EncodeStroke([Command('M', [0, 0], Closes)], [Point(0, 0)], measure) == Err(NoEndPoint)
  {
    var cmds, median := [Command('M', [0, 0], Closes)], [Point(0, 0)];
    var p0 := Straight(Point(0, 900));
    assert MedianStart(median) == Some(Point(0, 900));
    assert Interpret(cmds[0], NO_SUBPATH) == Append(p0, Point(0, 900));
    assert CollectFrom(cmds, 1, Point(0, 900), MedianStart(median)) == Ok([]);
    assert [p0] + [] == [p0];
    assert Collect(cmds, MedianStart(median)) == Ok([p0]);
    StrokeOutcome(cmds, median, measure);
  }

  /** A non-empty contour fails to encode, with no end point, exactly when nothing is left to walk. */
  lemma ContourOutcome(cs: seq<ContourPoint>, medianStart: Point, medianEnd: Point, measure: Measure)
    requires |cs| > 0
    ensures var r := EncodeContour(cs, medianStart, medianEnd, measure);
            (r.Err? <==> NothingToWalk(cs)) && (r.Err? ==> r.error == NoEndPoint)
  {
    var (contour, start) := DropLeadingDuplicate(cs, CanonicalStart(cs, medianStart));
    ContourIsWalk(cs, medianStart, medianEnd, measure);
    var walked := Walk(contour, start);
    assert |walked| == 0 <==> |contour| == 1 && contour[start].Straight?;
    if ClosesOntoStart(cs) {
      assert |contour| == |cs| - 1;
      if |contour| == 1 {
        assert contour[start] == cs[1];
      }
    } else {
      assert contour == cs;
    }
  }

  /** A contour's encoding is the encoding of its walk from the canonical start. */
  lemma ContourIsWalk(cs: seq<ContourPoint>, medianStart: Point, medianEnd: Point, measure: Measure)
    requires |cs| > 0
    ensures var (contour, start) := DropLeadingDuplicate(cs, CanonicalStart(cs, medianStart));
            && start < |contour|
            && EncodeContour(cs, medianStart, medianEnd, measure)
               == EncodeWalk(contour[start].target, Walk(contour, start), medianEnd, measure)
  {
  }

  /** A non-empty walk encodes to its quantized start, length and points. */
  lemma WalkEncoded(startPoint: Point, walked: seq<ContourPoint>, medianEnd: Point, measure: Measure)
    requires |walked| > 0
    ensures var k := FirstNearest(Targets(walked), medianEnd);
            EncodeWalk(startPoint, walked, medianEnd, measure)
            == Ok(EncodedStroke(
                 TransformArg(measure(startPoint, walked[..k + 1]) / 2, false),
                 TransformArg(startPoint.x, false),
                 TransformArg(startPoint.y, false),
                 QuantizeAll(walked)))
  {
  }

  /**
   * The stroke starts at the canonical contour point, the first one nearest
   * the median start, even when a leading move was removed.
   */
  lemma EncodedStartIsCanonical(cmds: seq<Command>, median: seq<Point>, measure: Measure)
    requires EncodeStroke(cmds, median, measure).Ok?
    ensures Collect(cmds, MedianStart(median)).Ok? && |median| > 0
    ensures var cs := Collect(cmds, MedianStart(median)).value;
            var e := EncodeStroke(cmds, median, measure).value;
            && |cs| > 0
            && var k := FirstNearest(Targets(cs), FlipPoint(median[0]));
               && IsFirstNearest(Targets(cs), FlipPoint(median[0]), k)
               && e.startX == TransformArg(cs[k].target.x, false)
               && e.startY == TransformArg(cs[k].target.y, false)
  {
    StrokeIsContour(cmds, median, measure);
    var cs := Collect(cmds, MedianStart(median)).value;
    var ms, me := FlipPoint(median[0]), FlipPoint(median[|median| - 1]);
    var first := CanonicalStart(cs, ms);
    var (contour, start) := DropLeadingDuplicate(cs, first);
    ContourIsWalk(cs, ms, me, measure);
    var walked := Walk(contour, start);
    assert |walked| > 0;
    WalkEncoded(contour[start].target, walked, me, measure);
    var k := FirstNearest(Targets(cs), ms);
    assert IsFirstNearest(Targets(cs), ms, first);
    FirstNearestUnique(Targets(cs), ms, k, first);
  }

  /**
   * The recorded length is the measure of the walk up to its first point
   * nearest the median end, halved and quantized; the segments are the
   * walked contour points, quantized, in walk order.
   */
  lemma EncodedLengthAndSegments(cmds: seq<Command>, median: seq<Point>, measure: Measure)
    requires EncodeStroke(cmds, median, measure).Ok?
    ensures Collect(cmds, MedianStart(median)).Ok? && |median| > 0
    ensures var cs := Collect(cmds, MedianStart(median)).value;
            var e := EncodeStroke(cmds, median, measure).value;
            && |cs| > 0
            && var (contour, start) := DropLeadingDuplicate(cs, CanonicalStart(cs, FlipPoint(median[0])));
               var walked := Walk(contour, start);
               && |e.segments| == |walked| > 0
               && (forall i :: 0 <= i < |walked| ==> e.segments[i] == QuantizeContour(contour[Turn(|contour|, start, i)]))
               && var k := FirstNearest(Targets(walked), FlipPoint(median[|median| - 1]));
                  e.halfLength == TransformArg(measure(contour[start].target, walked[..k + 1]) / 2, false)
  {
    StrokeIsContour(cmds, median, measure);
    var cs := Collect(cmds, MedianStart(median)).value;
    var ms, me := FlipPoint(median[0]), FlipPoint(median[|median| - 1]);
    var (contour, start) := DropLeadingDuplicate(cs, CanonicalStart(cs, ms));
    ContourIsWalk(cs, ms, me, measure);
    var walked := Walk(contour, start);
    assert |walked| > 0;
    WalkEncoded(contour[start].target, walked, me, measure);
  }

  // ---------------------------------------------------------------------
  // A worked stroke
  // ---------------------------------------------------------------------

  /** The stroke `M 0 0 L 100 0 Z` and its median from (0, 0) to (100, 0). */
  const ScenarioCommands := [Command('M', [0, 0], Continues), Command('L', [100, 0], Closes)]
  const ScenarioMedian := [Point(0, 0), Point(100, 0)]

  lemma ScenarioContour()
    ensures Collect(ScenarioCommands, MedianStart(ScenarioMedian))
            == Ok([Straight(Point(0, 900)), Straight(Point(100, 900))])
  {
    var cmds, median := ScenarioCommands, ScenarioMedian;
    var p0, p1 := Straight(Point(0, 900)), Straight(Point(100, 900));
    assert MedianStart(median) == Some(Point(0, 900));
    assert Interpret(cmds[0], NO_SUBPATH) == Append(p0, Point(0, 900));
    assert Interpret(cmds[1], Point(0, 900)) == Append(p1, Point(0, 900));
    assert CollectFrom(cmds, 2, Point(0, 900), MedianStart(median)) == Ok([]);
    assert [p1] + [] == [p1];
    assert CollectFrom(cmds, 1, Point(0, 900), MedianStart(median)) == Ok([p1]);
    assert [p0] + [p1] == [p0, p1];
  }

  lemma NearestOfTwo(p: Point, q: Point, to: Point)
    requires SquaredDistance(p, to) <= SquaredDistance(q, to)
    ensures FirstNearest([p, q], to) == 0
  {
    assert IsFirstNearest([p, q], to, 0);
    FirstNearestUnique([p, q], to, 0, FirstNearest([p, q], to));
  }

  lemma ScenarioStart()
    ensures CanonicalStart([Straight(Point(0, 900)), Straight(Point(100, 900))], Point(0, 900)) == 0
  {
    var ts := Targets([Straight(Point(0, 900)), Straight(Point(100, 900))]);
    assert ts == [Point(0, 900), Point(100, 900)];
    NearestOfTwo(Point(0, 900), Point(100, 900), Point(0, 900));
  }

  lemma ScenarioNoDuplicate()
    ensures var cs := [Straight(Point(0, 900)), Straight(Point(100, 900))]; DropLeadingDuplicate(cs, 0) == (cs, 0)
  {
    var cs := [Straight(Point(0, 900)), Straight(Point(100, 900))];
    assert cs[0].target != cs[|cs| - 1].target;
  }

  lemma ScenarioWalk()
    ensures Walk([Straight(Point(0, 900)), Straight(Point(100, 900))], 0) == [Straight(Point(100, 900))]
  {
    var cs := [Straight(Point(0, 900)), Straight(Point(100, 900))];
    TurnValue(2, 0, 0);
    TurnValue(2, 0, 1);
    assert WalkFrom(cs, 0, 1) == [];
    assert WalkFrom(cs, 0, 0) == [cs[1]] + [];
  }

  lemma ScenarioQuantization()
    ensures TransformArg(0, false) == 0 && TransformArg(900, false) == 225
    ensures QuantizeAll([Straight(Point(100, 900))]) == [LineSeg(25, 225)]
    ensures FirstNearest(Targets([Straight(Point(100, 900))]), Point(100, 900)) == 0
    ensures [Straight(Point(100, 900))][..1] == [Straight(Point(100, 900))]
  {
    var p1 := Straight(Point(100, 900));
    assert TransformArg(100, false) == 25;
    assert QuantizeContour(p1) == LineSeg(25, 225);
    assert QuantizeAll([p1])[0] == LineSeg(25, 225);
  }

  /** The walk of the worked contour: one line to (100, 900), from (0, 900). */
  lemma ScenarioContourEncoded(measure: Measure)
    ensures EncodeContour([Straight(Point(0, 900)), Straight(Point(100, 900))], Point(0, 900), Point(100, 900), measure)
            == EncodeWalk(Point(0, 900), [Straight(Point(100, 900))], Point(100, 900), measure)
  {
    var cs := [Straight(Point(0, 900)), Straight(Point(100, 900))];
    ContourIsWalk(cs, Point(0, 900), Point(100, 900), measure);
    ScenarioStart();
    ScenarioNoDuplicate();
    ScenarioWalk();
  }

  /** The worked stroke is the encoding of its collected contour. */
  lemma ScenarioStrokeIsContour(measure: Measure)
    ensures EncodeStroke(ScenarioCommands, ScenarioMedian, measure)
            == EncodeContour([Straight(Point(0, 900)), Straight(Point(100, 900))], Point(0, 900), Point(100, 900), measure)
  {
    ScenarioContour();
    StrokeOfContour(ScenarioCommands, ScenarioMedian, [Straight(Point(0, 900)), Straight(Point(100, 900))], measure);
    assert FlipPoint(ScenarioMedian[0]) == Point(0, 900);
    assert FlipPoint(ScenarioMedian[|ScenarioMedian| - 1]) == Point(100, 900);
  }

  /** A stroke whose commands collect into a non-empty contour is that contour's encoding. */
  lemma StrokeOfContour(cmds: seq<Command>, median: seq<Point>, cs: seq<ContourPoint>, measure: Measure)
    requires Collect(cmds, MedianStart(median)) == Ok(cs) && |cs| > 0
    ensures |median| > 0
    ensures EncodeStroke(cmds, median, measure)
            == EncodeContour(cs, FlipPoint(median[0]), FlipPoint(median[|median| - 1]), measure)
  {
  }

  /** The worked walk: one line, its own end, measured from (0, 900). */
  lemma ScenarioWalkEncoded(measure: Measure)
    ensures EncodeWalk(Point(0, 900), [Straight(Point(100, 900))], Point(100, 900), measure)
            == Ok(EncodedStroke(TransformArg(measure(Point(0, 900), [Straight(Point(100, 900))]) / 2, false),
                                0, 225, [LineSeg(25, 225)]))
  {
    WalkEncoded(Point(0, 900), [Straight(Point(100, 900))], Point(100, 900), measure);
    ScenarioQuantization();
  }

  /**
   * The worked stroke: the line back to the start is left out of the walk, so
   * it starts at (0, 900) and has one line to (100, 900).
   */
  lemma ScenarioStroke(measure: Measure)
    ensures EncodeStroke(ScenarioCommands, ScenarioMedian, measure)
            == Ok(EncodedStroke(TransformArg(measure(Point(0, 900), [Straight(Point(100, 900))]) / 2, false),
                                0, 225, [LineSeg(25, 225)]))
  {
    ScenarioStrokeIsContour(measure);
    ScenarioContourEncoded(measure);
    ScenarioWalkEncoded(measure);
  }
}
